=== FILE: README.md ===
# Native queries, the SAP HANA dialect and identifier promotion — a Dafny model

This project models three pieces of Hibernate ORM's core and proves properties of them.

- **Native SQL queries** (`NativeQueryImpl`). Before a native query runs, every `?` bound
  to a collection is rewritten into one placeholder per value. The placeholders may be
  padded to a power of two and parenthesised unless they already are. An empty collection
  becomes `null`. The surrounding decisions are also modelled:
  - whether the query plan may be cached, and under which key;
  - how the select and non-select plans are obtained;
  - whether the session is flushed first;
  - whether the statement is known to be a select;
  - whether a requested result type fits the mapping;
  - how `addJoin` splits a join path.
- **The SAP HANA dialect** (`AbstractHANADialect`). This covers:
  - how HANA error codes are classified;
  - the row-lock clauses and the millisecond-to-second timeout conversion;
  - the `extract` patterns;
  - the quoting rule applied after identifier normalisation;
  - the JDBC type-descriptor overrides;
  - the configuration step of `contributeTypes`;
  - the in-memory LOB buffers (`MaterializedBlob`, `MaterializedNClob`) that LOBs above
    the prefetch threshold are read into.
- **Result-mapping identifiers** (`ResultsHelper`, `EntityResultImpl`). This covers
  conversion between JDBC and value-array positions, recognition of an identifier's name,
  and how an entity result picks its identifier fetch out of its fetch list.

Modules, one per component:

| module | file | models |
|---|---|---|
| `Wrappers` | `wrappers.dfy` | `Option` and `Result`, which stand for Java's `null` and thrown exceptions |
| `Text` | `text.dfy` | `Character.isWhitespace`, `\w`, ASCII lower-casing, decimal rendering of numbers, `String.indexOf(char)` |
| `ParameterExpansion` | `parameter_expansion.dfy` | bind-count padding, the enclosure test, expansion texts, and the rewrite. The rewrite has a reference definition and is also written as the offset-tracking loop |
| `NativeQuery` | `native_query.dfy` | cacheability, interpretation keys, plan resolution, flushing, select detection, the typed-result check, `addJoin` |
| `HanaLocking` | `hana_locking.dfy` | lock clauses and lock-mode dispatch |
| `HanaDialect` | `hana_dialect.dfy` | error classifier, `extractPattern`, quoting, type overrides, dialect state and `contributeTypes` |
| `HanaLobs` | `hana_lobs.dfy` | the two LOB buffers, `Arrays.copyOf`/`copyOfRange`, `String.indexOf(String, int)`, the extraction threshold, the clob getter and the blob binder choice |
| `ResultsHelper` | `results_helper.dfy` | position conversion on 32-bit `int`, `isIdentifier`, `attributeName`, `implicitFetchBuilder` |
| `EntityResult` | `entity_result.dfy` | identifier-fetch promotion in the constructor, and `findFetch` |

The Java exceptions become `Failure` values of a `Result`, and `null` becomes `None`.
Several things come from classes outside this model:
- the generic dialect's `for update` clause;
- the skip-locked clause;
- the clause for lock options without aliases;
- the generic boolean literal;
- the constraint-name extractor's answer;
- the probed prefetch size;
- `isAssignableFrom`.

All of them are parameters. Object identity, of result mappings, transformers and fetched
mappings, is modelled by a number.

Behaviours of the code worth noting:
- `MaterializedBlob.truncate(len)` with `len` past the end pads with zero bytes, because
  it uses `Arrays.copyOf`. The same holds for `getBytes` reading past the end. Neither
  fails. JDBC's `Blob.truncate` only documents shortening a blob.
- `setBytes` grows the buffer to `pos - 1 + |bytes|` even when there is nothing to write.
  With a position before 1, it fails only when a byte is to be copied into a non-empty
  buffer.
- `MaterializedNClob.truncate(len)` empties the content whatever `len` is, where JDBC's
  `Clob.truncate` keeps the first `len` characters. It also succeeds on a freed clob, which
  it revives as empty.
- `MaterializedNClob.position` answers a zero-based index, where JDBC's `Clob.position`
  counts from 1 (see Findings).
- A write lock on named aliases with a timeout of 1 to 999 ms renders `wait 0`. Without
  aliases, the same timeout renders the `nowait` form.
- The comments next to the error classifier give the wrong meanings for 257 and 287. The
  model follows the numbers the code tests.

## Model

All source paths are under `hibernate-core/src/main/java/org/hibernate/`, written out in full.

| member | source | states |
|---|---|---|
| ParameterExpansion.CeilingPowerOfTwo | hibernate-core/src/main/java/org/hibernate/query/sql/internal/NativeQueryImpl.java:744 | the result is a power of two at least `n` whose half is below `n` |
| ParameterExpansion.CeilingPowerOfTwoIsLeast | hibernate-core/src/main/java/org/hibernate/query/sql/internal/NativeQueryImpl.java:744 | no power of two at least `n` is smaller than the ceiling |
| ParameterExpansion.DetermineBindValueMaxCount | hibernate-core/src/main/java/org/hibernate/query/sql/internal/NativeQueryImpl.java:738-755 | never below the bind count. Equals the count when padding is off or the count is at most 2. Otherwise it is the power-of-two ceiling, or, when that exceeds a positive limit, the larger of limit and count |
| ParameterExpansion.PaddingBounds | hibernate-core/src/main/java/org/hibernate/query/sql/internal/NativeQueryImpl.java:738-755 | padding yields fewer than twice the bound values, and under a positive limit at most the larger of the limit and the count |
| ParameterExpansion.NonWhitespaceBefore | hibernate-core/src/main/java/org/hibernate/query/sql/internal/NativeQueryImpl.java:664-671 | the index of the nearest non-whitespace character left of the placeholder, with only whitespace in between, or None when there is only whitespace |
| ParameterExpansion.NonWhitespaceFrom | hibernate-core/src/main/java/org/hibernate/query/sql/internal/NativeQueryImpl.java:672-680 | the same scan to the right of the placeholder |
| ParameterExpansion.IsEnclosedInParens | hibernate-core/src/main/java/org/hibernate/query/sql/internal/NativeQueryImpl.java:662-680 | the two scans report an enclosed placeholder exactly when only whitespace, then `(` or the start of the text, lies on its left, and only whitespace, then `)` or the end, lies on its right |
| ParameterExpansion.PlaceholderList | hibernate-core/src/main/java/org/hibernate/query/sql/internal/NativeQueryImpl.java:706-714 | `n` placeholders alternate with commas, in `2n - 1` characters |
| ParameterExpansion.ExpansionShape | hibernate-core/src/main/java/org/hibernate/query/sql/internal/NativeQueryImpl.java:693-728 | the replacement starts with `(` exactly when the placeholder is not enclosed. Count 0 gives `null` or `(null)`. Otherwise it holds exactly `n` question marks, in `2n - 1` characters ending in `?` when enclosed, or `2n + 1` ending in `)` when not |
| ParameterExpansion.PlaceholderListCount | hibernate-core/src/main/java/org/hibernate/query/sql/internal/NativeQueryImpl.java:706-714 | the list holds exactly `n` question marks |
| ParameterExpansion.RewriteOf | hibernate-core/src/main/java/org/hibernate/query/sql/internal/NativeQueryImpl.java:638-686 | an occurrence is left alone exactly when it is single-valued, has a negative position, or is a one-value list already in parentheses |
| ParameterExpansion.RewriteShape | hibernate-core/src/main/java/org/hibernate/query/sql/internal/NativeQueryImpl.java:638-728 | a replacement holds as many `?` as the padded count, which is at least the bind count, or is `null` for an empty list. It starts with `(` exactly when the placeholder is not enclosed |
| ParameterExpansion.NoRewriteNoChange | hibernate-core/src/main/java/org/hibernate/query/sql/internal/NativeQueryImpl.java:621-736 | when nothing is rewritten there are no edits, the length does not grow, and the result is the input SQL |
| ParameterExpansion.SingleRewrite | hibernate-core/src/main/java/org/hibernate/query/sql/internal/NativeQueryImpl.java:730-733 | one rewritten placeholder at `p` gives `sql[..p] + text + sql[p+1..]` |
| ParameterExpansion.ReplaceOneCharacter | hibernate-core/src/main/java/org/hibernate/query/sql/internal/NativeQueryImpl.java:730-733 | adding an edit past all earlier ones replaces exactly one character of the rendering, at the source position moved by the earlier growth |
| ParameterExpansion.EditKeys | hibernate-core/src/main/java/org/hibernate/query/sql/internal/NativeQueryImpl.java:657-660 | every replaced position is the non-negative position of some occurrence |
| ParameterExpansion.SpliceStep | hibernate-core/src/main/java/org/hibernate/query/sql/internal/NativeQueryImpl.java:730-733 | splicing occurrence `i` at `sourcePosition + offset` extends the rendering of the first `i` occurrences to that of the first `i + 1` |
| ParameterExpansion.ExpandOne | hibernate-core/src/main/java/org/hibernate/query/sql/internal/NativeQueryImpl.java:635-734 | one loop round keeps the loop state: the buffer holds the reference rendering so far, and the offset is the sum of `|replacement| - 1` |
| ParameterExpansion.ExpandParameterLists | hibernate-core/src/main/java/org/hibernate/query/sql/internal/NativeQueryImpl.java:621-736 | the loop with a lazily created buffer and a running offset returns the reference rendering. Every rewritten `?` is replaced and every other character kept in order. The length is the input's plus the sum of `|replacement| - 1` |
| NativeQuery.HasAnyMultiValuedBindings | hibernate-core/src/main/java/org/hibernate/query/sql/internal/NativeQueryImpl.java:780 | true exactly when some binding is a collection |
| NativeQuery.GenerateSelectInterpretationsKey | hibernate-core/src/main/java/org/hibernate/query/sql/internal/NativeQueryImpl.java:757-781 | no key exactly when some binding is multi-valued. Otherwise the key holds the SQL, mapping, synchronized spaces and both transformers |
| NativeQuery.GenerateNonSelectInterpretationsKey | hibernate-core/src/main/java/org/hibernate/query/sql/internal/NativeQueryImpl.java:812-822 | no key exactly when some binding is multi-valued. Otherwise the key holds the SQL and synchronized spaces |
| NativeQuery.KeysSeparateSynchronizedSpaces | hibernate-core/src/main/java/org/hibernate/query/sql/internal/NativeQueryImpl.java:757-822 | cacheable queries that differ in synchronized spaces get different keys |
| NativeQuery.CacheablePlanKeepsSql | hibernate-core/src/main/java/org/hibernate/query/sql/internal/NativeQueryImpl.java:587-619 | a cacheable query's plan SQL is its own SQL text, unexpanded |
| NativeQuery.ResolveSelectQueryPlan | hibernate-core/src/main/java/org/hibernate/query/sql/internal/NativeQueryImpl.java:574-619 | a plan goes through the cache exactly when the query is cacheable. Otherwise it is built directly from the expanded SQL. Either way it carries the occurrences, the mapping and the query spaces |
| NativeQuery.CreateQueryPlan | hibernate-core/src/main/java/org/hibernate/query/sql/internal/NativeQueryImpl.java:587-619 | the plan carries the reference rendering of the expanded SQL, which is the query's own text when it is cacheable, together with the occurrences, the mapping and the query spaces |
| NativeQuery.ResolveNonSelectQueryPlan | hibernate-core/src/main/java/org/hibernate/query/sql/internal/NativeQueryImpl.java:792-809 | a non-cacheable query builds its plan from the expanded SQL and leaves the cache alone. A cacheable query returns the cached plan, or builds one and stores it under its key |
| NativeQuery.NonSelectResolutionIsStable | hibernate-core/src/main/java/org/hibernate/query/sql/internal/NativeQueryImpl.java:792-809 | resolving twice gives the same plan and the same cache |
| NativeQuery.ShouldFlush | hibernate-core/src/main/java/org/hibernate/query/sql/internal/NativeQueryImpl.java:550-567 | never outside a transaction. Inside one: always under ALWAYS, under AUTO exactly with JPA bootstrap, never under MANUAL or COMMIT. The query's mode wins over the session's |
| NativeQuery.FlushesBeforeExecution | hibernate-core/src/main/java/org/hibernate/query/sql/internal/NativeQueryImpl.java:528-548 | a full flush happens exactly when no synchronized space is declared and `shouldFlush` holds |
| NativeQuery.QueryFlushModeWins | hibernate-core/src/main/java/org/hibernate/query/sql/internal/NativeQueryImpl.java:550-567 | once the query sets a flush mode, the session's mode makes no difference, and the outcome is what the session would give with that mode |
| NativeQuery.IsSelectQuery | hibernate-core/src/main/java/org/hibernate/query/sql/internal/NativeQueryImpl.java:514-522 | select exactly when a mapping was supplied, a result builder exists, or the query is read-only, and undetermined otherwise |
| NativeQuery.CheckResultType | hibernate-core/src/main/java/org/hibernate/query/sql/internal/NativeQueryImpl.java:276-292 | a tuple installs the tuple transformer. A class type succeeds exactly with one assignable builder. No builder, more than one, or a non-assignable one each fail with their own error |
| NativeQuery.TypedResultIsSelect | hibernate-core/src/main/java/org/hibernate/query/sql/internal/NativeQueryImpl.java:276-292 | a class result type that passes the check implies a result builder exists, so `isSelectQuery` answers select |
| NativeQuery.CreateFetchJoin | hibernate-core/src/main/java/org/hibernate/query/sql/internal/NativeQueryImpl.java:985-998 | fails exactly when the path has no dot. Otherwise owner + "." + property is the path and the owner has no dot |
| NativeQuery.FetchJoinRoundTrip | hibernate-core/src/main/java/org/hibernate/query/sql/internal/NativeQueryImpl.java:990-998 | splitting `owner.property`, for an owner without dots, gives back owner and property |
| Text.IndexOf | hibernate-core/src/main/java/org/hibernate/query/sql/internal/NativeQueryImpl.java:991 | the first index of the character, or -1 exactly when it is absent |
| Text.NatToDecimal | hibernate-core/src/main/java/org/hibernate/dialect/AbstractHANADialect.java:1317-1342 | the decimal rendering of a number: digits only, no leading zero |
| Text.DecimalRoundTrip | hibernate-core/src/main/java/org/hibernate/dialect/AbstractHANADialect.java:1317-1342 | reading the rendered digits back gives the number |
| HanaLocking.LockWaitTimeoutInSeconds | hibernate-core/src/main/java/org/hibernate/dialect/AbstractHANADialect.java:1344-1352 | the seconds `s` satisfy `1000 s <= ms < 1000 s + 1000`, so the value is floored |
| HanaLocking.WaitSuffix | hibernate-core/src/main/java/org/hibernate/dialect/AbstractHANADialect.java:1317-1342 | ` wait ` followed by the seconds written as Java writes a long: plain decimal digits, no leading zero, whose value is the seconds |
| HanaLocking.WriteLockStringOf | hibernate-core/src/main/java/org/hibernate/dialect/AbstractHANADialect.java:1331-1342 | starts with `F of A`. A negative timeout adds nothing, zero adds ` nowait`, and a positive one adds ` wait s` with `s` the floored seconds in plain decimal |
| HanaLocking.WriteLockString | hibernate-core/src/main/java/org/hibernate/dialect/AbstractHANADialect.java:1317-1329 | branches on the floored seconds: negative gives `F`, 0 to 999 ms gives `F nowait`, and from 1000 ms it gives `F wait s` with `s >= 1` the floored seconds in plain decimal |
| HanaLocking.SubSecondTimeouts | hibernate-core/src/main/java/org/hibernate/dialect/AbstractHANADialect.java:1317-1342 | 1 to 999 ms gives `F of A wait 0` with aliases but `F nowait` without |
| HanaLocking.ForUpdateStringFor | hibernate-core/src/main/java/org/hibernate/dialect/AbstractHANADialect.java:972-990 | UPGRADE gives `F of A`. PESSIMISTIC_READ and PESSIMISTIC_WRITE give the write lock, with its exact ` nowait` or ` wait s` text. UPGRADE_NOWAIT, FORCE and PESSIMISTIC_FORCE_INCREMENT give `F of A nowait`. UPGRADE_SKIPLOCKED gives the generic skip-locked clause. Every other mode gives "" |
| HanaLocking.ForUpdateStringWithOptions | hibernate-core/src/main/java/org/hibernate/dialect/AbstractHANADialect.java:959-970 | null or empty aliases use the generic clause for the lock options. Otherwise the lock mode decides |
| HanaLocking.ReadLockString | hibernate-core/src/main/java/org/hibernate/dialect/AbstractHANADialect.java:1307-1310 | HANA has no shared lock: the read lock without aliases is the `for update` clause, bare for a negative timeout, `nowait` under one second, and `wait s` with `s >= 1` the floored seconds, in plain decimal, from one second on |
| HanaLocking.ReadLockStringOf | hibernate-core/src/main/java/org/hibernate/dialect/AbstractHANADialect.java:1312-1315 | the read lock on aliases is `F of A`, bare for a negative timeout, `nowait` for zero, and `wait s` with `s` the floored seconds, in plain decimal, for a positive one |
| HanaLocking.DispatchLocksNamedAliases | hibernate-core/src/main/java/org/hibernate/dialect/AbstractHANADialect.java:972-990 | apart from the skip-locked clause, the dispatch gives "" exactly for the modes that take no row lock (NONE, READ, OPTIMISTIC, OPTIMISTIC_FORCE_INCREMENT, WRITE). Every other clause starts with `F of A` |
| HanaDialect.ConvertSqlException | hibernate-core/src/main/java/org/hibernate/dialect/AbstractHANADialect.java:876-922 | 131/146 give lock timeout. 132/133 give lock acquisition. 257 and 259-263 throw a grammar error. 287/301/461/462 give a constraint violation carrying the extracted name. Every other code gives null. Each case is an if-and-only-if |
| HanaDialect.ClassificationDependsOnCodeOnly | hibernate-core/src/main/java/org/hibernate/dialect/AbstractHANADialect.java:876-922 | outside constraint violations the extracted name does not matter, and 258 is unclassified |
| HanaDialect.ExtractPattern | hibernate-core/src/main/java/org/hibernate/dialect/AbstractHANADialect.java:859-873 | the HANA function for day of week, day, day of month and day of year. The generic `?1(?2)` is used exactly for every other unit |
| HanaDialect.ExtractPatternUsesArgument | hibernate-core/src/main/java/org/hibernate/dialect/AbstractHANADialect.java:859-873 | every pattern contains the argument placeholder `?2` |
| HanaDialect.NormalizeQuoting | hibernate-core/src/main/java/org/hibernate/dialect/AbstractHANADialect.java:1269-1283 | null stays null and the text is kept. The result is quoted exactly when the input was quoted or its text is not `\w+` |
| HanaDialect.NormalizeQuotingIdempotent | hibernate-core/src/main/java/org/hibernate/dialect/AbstractHANADialect.java:1269-1283 | applying the step twice equals applying it once, and an unquoted result is a non-empty word |
| HanaDialect.ColonIsQuoted | hibernate-core/src/main/java/org/hibernate/dialect/AbstractHANADialect.java:1278-1280 | an unquoted name containing `:` comes out quoted |
| HanaDialect.TableNameNeedsTypeQuoting | hibernate-core/src/main/java/org/hibernate/dialect/AbstractHANADialect.java:714-718 | DDL is rewritten exactly for an unquoted name spelled `type` in any letter case |
| HanaDialect.InitialDialect | hibernate-core/src/main/java/org/hibernate/dialect/AbstractHANADialect.java:673-789 | after the generic constructor, the HANA constructor sets all three LOB descriptors to 1024, the clob descriptor and string types to the unicode default, and both switches off. It registers no BOOLEAN or CLOB column type itself |
| HanaDialect.InitialColumnTypeChoices | hibernate-core/src/main/java/org/hibernate/dialect/AbstractHANADialect.java:740-774 | long VARCHAR maps to clob and long NVARCHAR to nclob. Short VARCHAR maps to varchar. Short BINARY maps to varbinary. TINYINT maps to smallint. NUMERIC maps like DECIMAL |
| HanaDialect.GetSqlTypeDescriptorOverride | hibernate-core/src/main/java/org/hibernate/dialect/AbstractHANADialect.java:1012-1033 | CLOB, NCLOB and BLOB get the dialect's LOB descriptors and TINYINT gets SMALLINT. VARCHAR and CHAR get the N-variants exactly under unicode. DOUBLE gets DECIMAL exactly when doubles are treated as decimal. Every other code goes to the generic dialect |
| HanaDialect.ResolveMaxLobPrefetchSize | hibernate-core/src/main/java/org/hibernate/dialect/AbstractHANADialect.java:1391-1439 | the configured size wins over the probed one, which wins over 1024 |
| HanaDialect.UnicodeColumnTypes | hibernate-core/src/main/java/org/hibernate/dialect/AbstractHANADialect.java:1456-1463 | CHAR and short VARCHAR become nvarchar, and long VARCHAR and CLOB become nclob. No other key is added, and every other column type keeps its value |
| HanaDialect.ContributedColumnTypes | hibernate-core/src/main/java/org/hibernate/dialect/AbstractHANADialect.java:1456-1476 | the unicode registrations when asked for, then BOOLEAN as tinyint under legacy booleans. Only those keys may be added or replaced, every other column type keeps its value, and with neither switch the column types are unchanged |
| HanaDialect.DecimalHibernateTypes | hibernate-core/src/main/java/org/hibernate/dialect/AbstractHANADialect.java:1481-1484 | FLOAT, REAL and DOUBLE map to BigDecimal. Every other code keeps its Hibernate type, and no other code is added |
| HanaDialect.DecimalContributions | hibernate-core/src/main/java/org/hibernate/dialect/AbstractHANADialect.java:1478-1522 | FLOAT, REAL and DOUBLE map to BigDecimal only and are read with the numeric descriptor. Every other code keeps its types and descriptor, and no other code is added |
| HanaDialect.ContributeTypes | hibernate-core/src/main/java/org/hibernate/dialect/AbstractHANADialect.java:1389-1524 | nclob and blob take the resolved size. With ASCII support, clob takes the size, and unicode comes from the setting or else the default; without ASCII support both are untouched. The legacy-boolean and double-as-decimal switches are exactly their settings, default false, and each brings its registrations. Without double-as-decimal the contributions are unchanged; with it, every code other than FLOAT, REAL and DOUBLE keeps its types and descriptor. Only the unicode and BOOLEAN column types may be added or replaced, every other column type keeps its value, and with neither unicode registrations nor legacy booleans the column types are unchanged |
| HanaDialect.ContributedOverridesAgree | hibernate-core/src/main/java/org/hibernate/dialect/AbstractHANADialect.java:1428-1447 | after `contributeTypes` the overrides for BLOB and NCLOB (and CLOB, with ASCII support) carry the resolved size. VARCHAR and DOUBLE follow their settings |
| HanaDialect.ContributedLobHandling | hibernate-core/src/main/java/org/hibernate/dialect/AbstractHANADialect.java:1428-1447 | after `contributeTypes` blobs are stream-bound with the resolved size and materialized exactly from that size on. With ASCII support, clobs are read with `getNClob` exactly when VARCHAR is replaced by NVARCHAR |
| HanaDialect.UnicodeColumnTypesIdempotent | hibernate-core/src/main/java/org/hibernate/dialect/AbstractHANADialect.java:1456-1463 | registering the unicode column types twice changes nothing |
| HanaDialect.ContributedColumnTypesIdempotent | hibernate-core/src/main/java/org/hibernate/dialect/AbstractHANADialect.java:1456-1476 | registering the contributed column types twice equals registering them once |
| HanaDialect.DecimalIdempotent | hibernate-core/src/main/java/org/hibernate/dialect/AbstractHANADialect.java:1481-1522 | remapping FLOAT, REAL and DOUBLE to decimal twice equals doing it once, for the Hibernate types and for the contributions |
| HanaDialect.ContributeTypesIdempotent | hibernate-core/src/main/java/org/hibernate/dialect/AbstractHANADialect.java:1389-1524 | contributing the same configuration twice gives the state the first contribution gave |
| HanaDialect.DefaultsKeepInitialThresholds | hibernate-core/src/main/java/org/hibernate/dialect/AbstractHANADialect.java:1428-1476 | a new dialect with no settings and no probe keeps 1024 everywhere, its unicode default, and both switches off |
| HanaDialect.ToBooleanValueString | hibernate-core/src/main/java/org/hibernate/dialect/AbstractHANADialect.java:1530-1535 | the generic literal under legacy booleans. Otherwise `true` exactly for true and `false` for false |
| HanaLobs.CopyOf | hibernate-core/src/main/java/org/hibernate/dialect/AbstractHANADialect.java:147-184 | fails exactly on a negative length. Otherwise byte `i` is the old byte, or 0 past the end |
| HanaLobs.CopyOfRange | hibernate-core/src/main/java/org/hibernate/dialect/AbstractHANADialect.java:129 | fails exactly when `to < from` or `from` lies outside the array. Otherwise it has length `to - from`, with zeros past the end |
| HanaLobs.BlobLength | hibernate-core/src/main/java/org/hibernate/dialect/AbstractHANADialect.java:122-125 | the byte count, and a failure exactly after free |
| HanaLobs.BlobGetBytes | hibernate-core/src/main/java/org/hibernate/dialect/AbstractHANADialect.java:127-130 | succeeds exactly for a non-negative length and `1 <= pos <= length + 1`. It returns `length` bytes, which are the slice `[pos-1, pos-1+length)` of the content, with a zero byte for every position past its end. A negative length fails with an illegal argument |
| HanaLobs.BlobSetBytes | hibernate-core/src/main/java/org/hibernate/dialect/AbstractHANADialect.java:147-157 | the new length is max(old, pos-1+\|b\|). The bytes at `[pos-1, pos-1+\|b\|)` are `b`, and every other byte is the old one or 0. Returns \|b\| when pos >= 1. Exact success and failure conditions |
| HanaLobs.BlobTruncate | hibernate-core/src/main/java/org/hibernate/dialect/AbstractHANADialect.java:181-184 | the first `len` bytes when `len <= length`, padded with zeros beyond. Fails on a negative length |
| HanaLobs.WriteTruncateRead | hibernate-core/src/main/java/org/hibernate/dialect/AbstractHANADialect.java:122-184 | writing N bytes into an empty blob, truncating to M <= N and reading all back gives the first M bytes |
| HanaLobs.FreedBlobFails | hibernate-core/src/main/java/org/hibernate/dialect/AbstractHANADialect.java:186-189 | after free, length, getBytes, setBytes and truncate all fail |
| HanaLobs.NClobTruncate | hibernate-core/src/main/java/org/hibernate/dialect/AbstractHANADialect.java:214-217 | the content is empty, whatever the length asked for |
| HanaLobs.NClobSetString | hibernate-core/src/main/java/org/hibernate/dialect/AbstractHANADialect.java:226-230 | succeeds exactly when `s` fits from `pos`. The length is kept, the range is replaced by `s`, the rest is untouched, and it returns \|s\| |
| HanaLobs.NClobSetStringRange | hibernate-core/src/main/java/org/hibernate/dialect/AbstractHANADialect.java:219-224 | as above with `str[offset..offset+len]`, and it fails on out-of-range offsets |
| HanaLobs.NClobGetSubString | hibernate-core/src/main/java/org/hibernate/dialect/AbstractHANADialect.java:257-260 | succeeds exactly for an in-range window, and returns those characters |
| HanaLobs.NClobLength | hibernate-core/src/main/java/org/hibernate/dialect/AbstractHANADialect.java:252-255 | the character count, and a failure exactly after free |
| HanaLobs.NClobWriteRead | hibernate-core/src/main/java/org/hibernate/dialect/AbstractHANADialect.java:226-260 | reading back what `setString` wrote returns it, and the length is unchanged |
| HanaLobs.FreedNClob | hibernate-core/src/main/java/org/hibernate/dialect/AbstractHANADialect.java:214-280 | after free, reading and writing fail, and truncate revives an empty clob |
| HanaLobs.IndexOfFrom | hibernate-core/src/main/java/org/hibernate/dialect/AbstractHANADialect.java:247-250 | Java's `indexOf(str, from)`: the first match at or after `from`, with no match before it, or -1 when there is none. The empty string is found at the start clamped to `[0, length]`, so a start past the end finds it at the end |
| HanaLobs.NClobPositionAsWritten | hibernate-core/src/main/java/org/hibernate/dialect/AbstractHANADialect.java:247-250 | the zero-based index of the first match at or after index `start - 1`, with no match before it, or -1 exactly when there is none. A live clob always succeeds, and the empty string is found at `start - 1` clamped to `[0, length]` |
| HanaLobs.PositionIsOffByOne | hibernate-core/src/main/java/org/hibernate/dialect/AbstractHANADialect.java:247-250 | "a" in "abc" from position 1 is reported as 0 |
| HanaLobs.NClobPosition | hibernate-core/src/main/java/org/hibernate/dialect/AbstractHANADialect.java:247-250 | the one-based position of the first match at or after `start`, with no match before it, or -1. A live clob always succeeds, and the empty string is found one past `start - 1` clamped to `[0, length]` |
| HanaLobs.PositionCorrected | hibernate-core/src/main/java/org/hibernate/dialect/AbstractHANADialect.java:247-250 | "a" in "abc" from position 1 is at position 1 |
| HanaLobs.PositionAsWrittenIsOneLess | hibernate-core/src/main/java/org/hibernate/dialect/AbstractHANADialect.java:247-250 | for every clob, string and start, the buffer's answer is one less than the one-based position whenever there is a match. Both answer -1 when there is none |
| HanaLobs.ExtractLob | hibernate-core/src/main/java/org/hibernate/dialect/AbstractHANADialect.java:613-620 | materialized exactly when non-null and length >= threshold, with the same content. Otherwise the driver LOB is passed through |
| HanaLobs.MaterializedBlobCopiesContent | hibernate-core/src/main/java/org/hibernate/dialect/AbstractHANADialect.java:614-619 | the materialized blob has the driver blob's length and bytes |
| HanaLobs.ClobGetterFor | hibernate-core/src/main/java/org/hibernate/dialect/AbstractHANADialect.java:451-457 | `getNClob` exactly under unicode string types |
| HanaLobs.BlobBinderFor | hibernate-core/src/main/java/org/hibernate/dialect/AbstractHANADialect.java:638-649 | `byte[]` takes the primitive-array binder. Otherwise the stream binder, carrying the threshold, exactly when stream binding is on. Otherwise the default binder |
| ResultsHelper.Wrap32 | hibernate-core/src/main/java/org/hibernate/query/results/ResultsHelper.java:43-49 | the `int` congruent to the input modulo 2^32, and the input itself when in range |
| ResultsHelper.JdbcPositionToValuesArrayPosition | hibernate-core/src/main/java/org/hibernate/query/results/ResultsHelper.java:43-45 | `p - 1`, wrapping from MIN_VALUE to MAX_VALUE |
| ResultsHelper.ValuesArrayPositionToJdbcPosition | hibernate-core/src/main/java/org/hibernate/query/results/ResultsHelper.java:47-49 | `p + 1`, wrapping from MAX_VALUE to MIN_VALUE |
| ResultsHelper.PositionRoundTrips | hibernate-core/src/main/java/org/hibernate/query/results/ResultsHelper.java:43-49 | both compositions are the identity on every `int` |
| ResultsHelper.AttributeName | hibernate-core/src/main/java/org/hibernate/query/results/ResultsHelper.java:155-159 | the attribute name exactly for a single-attribute identifier, and null otherwise |
| ResultsHelper.IdentifierAttributeName | hibernate-core/src/main/java/org/hibernate/query/results/ResultsHelper.java:69-71 | the attribute name, or `{id}` for other identifiers |
| ResultsHelper.IsIdentifier | hibernate-core/src/main/java/org/hibernate/query/results/ResultsHelper.java:68-85 | true exactly when some name is `{id}`, or the single attribute's name for a single-attribute identifier. False for no names |
| ResultsHelper.NamesIdentifierIff | hibernate-core/src/main/java/org/hibernate/query/results/ResultsHelper.java:68-85 | comparing against `{id}` and the attribute name recognises `{id}` for every identifier and the attribute name only for single attributes |
| ResultsHelper.ImplicitFetchBuilderFor | hibernate-core/src/main/java/org/hibernate/query/results/ResultsHelper.java:136-153 | basic first, then embeddable, each keeping path and fetchable. Entity-valued fails as not yet implemented. Anything else is an unsupported operation. Each case is an if-and-only-if |
| ResultsHelper.FirstApplicableKindDecides | hibernate-core/src/main/java/org/hibernate/query/results/ResultsHelper.java:136-153 | listing the applicable kinds in test order, the first one alone decides the builder. No applicable kind means an unsupported operation |
| EntityResult.IsIdFetchAgreesWithIsIdentifier | hibernate-core/src/main/java/org/hibernate/query/results/complete/EntityResultImpl.java:64-75 | the constructor's test recognises the same names as `isIdentifier` |
| EntityResult.NewEntityResult | hibernate-core/src/main/java/org/hibernate/query/results/complete/EntityResultImpl.java:46-96 | a fetch is promoted exactly when some fetch matches. It is the first match, the list loses exactly that index, and the order and later matches are kept. Otherwise the list is unchanged and the identifier is implicit on (entity path, attribute name) |
| EntityResult.FindFetch | hibernate-core/src/main/java/org/hibernate/query/results/complete/EntityResultImpl.java:123-132 | null exactly when no fetch has that mapping. Otherwise the first fetch with it |
| EntityResult.PromotedFetchIsGone | hibernate-core/src/main/java/org/hibernate/query/results/complete/EntityResultImpl.java:123-132 | with distinct mappings, after the removal `findFetch` misses the promoted fetch and still finds every other one |

## Left out

- The probe of `SYS.M_INIFILE_CONTENTS` in `contributeTypes` is database I/O. Its outcome
  is the `probed` input of `ResolveMaxLobPrefetchSize`.
- `Integer.valueOf` on the prefetch setting, and the boolean converter, are parsing.
  Settings come in already converted.
- The generic dialect is not part of this model. That covers `getForUpdateString()`, the
  skip-locked clause, `getForUpdateString(lockOptions)`, the generic boolean literal, the
  generic type overrides (`BaseDialectOverride`) and `super.contributeTypes`.
  `registerColumnType` is modelled as a map update keyed by code and capacity. How column
  types are looked up by capacity is not modelled.
- `lockOptions.setLockMode(findGreatestLockMode())` mutates the lock options. The greatest
  lock mode is an input.
- The `doBind`/`doExtract` bodies, the close-suppressing streams, and the stream
  accessors of the LOB buffers are JDBC plumbing, and so is `DataHelper`'s copying. The
  extraction threshold is modelled as `ExtractLob`, and the binder choice as `BlobBinderFor`.
- `MaterializedBlob.setBytes(pos, bytes, offset, len)` is left out. Its loop indexing does
  not agree with its growth when `offset` is not 0.
- `MaterializedBlob.position` and `MaterializedNClob.setCharacterStream`/`setAsciiStream`
  only throw `SQLFeatureNotSupportedException`.
- The `long` to `int` casts in the LOB buffers are left out, and so are 32-bit overflow of
  bind counts and of `ceilingPowerOfTwo`. Positions and lengths are unbounded integers.
- `BlobSetBytes`: where the Java method grows the buffer and then throws, the model reports
  only the failure and not the grown buffer.
- `InitialDialect`: the column types and other state registered by the generic dialect's
  constructor, which runs first, are not part of this model. The map holds only the HANA
  constructor's registrations.
- Strings are sequences of Unicode characters, while Java's `length`, `charAt`,
  `substring`, `indexOf` and the placeholders' source positions count UTF-16 code units.
  Lengths, positions and substrings in the model match Java only for text without
  supplementary characters. A lone surrogate cannot be represented.
- `HanaLobs.NClobPositionAsWritten`: the clob overload extracts the search string through
  `DataHelper`. Both overloads are modelled by the string form.
- The regular-expression rewrite in `quoteTypeIfNecessary` works on DDL generated by the
  generic exporter. Only its guard is modelled.
  - `TableNameNeedsTypeQuoting` lower-cases ASCII letters only. No other character
    lower-cases to one of `t`, `y`, `p`, `e`, so the result is the same as Java's
    `toLowerCase`.
- The remainder of the dialect consists of foreign calls into unseen classes:
  - function registry setup;
  - keyword registration;
  - default properties;
  - the SQL AST translator;
  - the identifier helper wiring.
- The `NativeQueryImpl` items left out:
  - setter and `setParameter*` boilerplate;
  - hints;
  - `unwrap`;
  - logging, including the too-many-IN-expressions warning;
  - the native query interpreter that builds plans;
  - the interpretation cache's concurrency;
  - the session flush itself.
  Plans are records of what they are built from, and the select cache is reduced to its key
  and the plan it would build.
- `ResultsHelper.implicitIdentifierResult` calls `createDomainResult` on the identifier
  mapping. The model records the mapping and the path it is called with.
- `ResultsHelper.convertIdFetchToResult` returns null whatever it is given.
- `EntityResultImpl.createResultAssembler` and initializer resolution are runtime
  object-graph plumbing.
- `IsIdentifier`: null names are left out; every name is a string.

## Findings

| source | as written | input that shows it | evidently intended | confidence | as-written member | corrected member |
|---|---|---|---|---|---|---|
| hibernate-core/src/main/java/org/hibernate/dialect/AbstractHANADialect.java:247-250 | `MaterializedNClob.position` returns `String.indexOf`, a zero-based index | data "abc", search "a", start 1: returns 0 | JDBC's `Clob.position` counts from 1, like the `start` argument the same method already shifts by one, so the answer should be 1 | medium, not executed | HanaLobs.NClobPositionAsWritten (counterexample HanaLobs.PositionIsOffByOne, for all inputs HanaLobs.PositionAsWrittenIsOneLess) | HanaLobs.NClobPosition (HanaLobs.PositionCorrected) |

=== FILE: entity_result.dfy ===
/** Building the result for an entity in a native-query mapping. Among the fetches visited for
    the entity, the first that refers to the identifier (by `{id}` or by the identifier's
    attribute name) is taken out of the list and becomes the identifier result; when there is
    none, the identifier result is created implicitly on the identifier's path. */
module EntityResult {
  import opened Wrappers
  import opened ResultsHelper

  /** A fetch: the local name of its navigable path and the identity of the mapping it fetches. */
  datatype Fetch = Fetch(localName: string, fetchedMapping: nat)

  /** The path of an entity's identifier: the entity's path and the identifier's attribute
      name, None for an identifier that is not a single attribute. */
  datatype IdentifierPath = IdentifierPath(parent: string, localName: Option<string>)

  /** The identifier result: a promoted fetch turned into a result, or an implicit one. */
  datatype IdentifierResult =
    | FetchAsResult(fetch: Fetch)
    | ImplicitIdentifierResult(identifierMapping: IdentifierMapping, idPath: IdentifierPath)

  datatype EntityResultState = EntityResultState(
    navigablePath: string,
    fetches: seq<Fetch>,
    identifierResult: IdentifierResult)

  /** The test the constructor applies to each fetch: its local name is `{id}`, or the
      identifier is a single attribute and the name is that attribute's. */
  predicate IsIdFetch(m: IdentifierMapping, f: Fetch) {
    f.localName == RoleLocalName || (AttributeName(m).Some? && f.localName == AttributeName(m).value)
  }

  /** The constructor's test and `isIdentifier` recognise the same names. */
  lemma IsIdFetchAgreesWithIsIdentifier(m: IdentifierMapping, f: Fetch)
    ensures IsIdFetch(m, f) <==> NamesIdentifier(m, f.localName)
  {
  }

  /** Promotes the identifier fetch among `visitedFetches`, following the constructor. */
  method NewEntityResult(navigablePath: string, m: IdentifierMapping, visitedFetches: seq<Fetch>)
    returns (r: EntityResultState)
    ensures r.navigablePath == navigablePath
    ensures r.identifierResult.FetchAsResult? <==> exists i :: 0 <= i < |visitedFetches| && IsIdFetch(m, visitedFetches[i])
    ensures r.identifierResult.FetchAsResult? ==>
              exists i :: 0 <= i < |visitedFetches|
                          && visitedFetches[i] == r.identifierResult.fetch
                          && IsIdFetch(m, visitedFetches[i])
                          && (forall j :: 0 <= j < i ==> !IsIdFetch(m, visitedFetches[j]))
                          && r.fetches == visitedFetches[..i] + visitedFetches[i + 1..]
    ensures r.identifierResult.ImplicitIdentifierResult? ==>
              && r.fetches == visitedFetches
              && r.identifierResult == ImplicitIdentifierResult(m, IdentifierPath(navigablePath, AttributeName(m)))
  {
    var idAttributeName := AttributeName(m);
    var i := 0;
    while i < |visitedFetches|
      invariant 0 <= i <= |visitedFetches|
      invariant forall j :: 0 <= j < i ==> !IsIdFetch(m, visitedFetches[j])
    {
      var fetch := visitedFetches[i];
      if fetch.localName == RoleLocalName || (idAttributeName.Some? && fetch.localName == idAttributeName.value) {
        return EntityResultState(navigablePath, visitedFetches[..i] + visitedFetches[i + 1..], FetchAsResult(fetch));
      }
      i := i + 1;
    }
    return EntityResultState(navigablePath, visitedFetches,
                             ImplicitIdentifierResult(m, IdentifierPath(navigablePath, AttributeName(m))));
  }

  /** The fetch whose fetched mapping is `fetchable`, the first one if there are several. */
  function FindFetch(fetches: seq<Fetch>, fetchable: nat): (r: Option<Fetch>)
    ensures r.None? <==> forall i :: 0 <= i < |fetches| ==> fetches[i].fetchedMapping != fetchable
    ensures r.Some? ==> exists i :: 0 <= i < |fetches| && fetches[i] == r.value && r.value.fetchedMapping == fetchable
                                    && forall j :: 0 <= j < i ==> fetches[j].fetchedMapping != fetchable
  {
    if |fetches| == 0 then None
    else if fetches[0].fetchedMapping == fetchable then Some(fetches[0])
    else
      var rest := FindFetch(fetches[1..], fetchable);
      assert forall i :: 1 <= i < |fetches| ==> fetches[i] == fetches[1..][i - 1];
      rest
  }

  /** Every fetched mapping occurs at most once among `fetches`. */
  predicate DistinctMappings(fetches: seq<Fetch>) {
    forall i, j :: 0 <= i < j < |fetches| ==> fetches[i].fetchedMapping != fetches[j].fetchedMapping
  }

  /** Once the fetch at `i` has been taken out, looking its mapping up finds nothing, and every
      other fetch is still found, when mappings are distinct. */
  lemma {:induction false} PromotedFetchIsGone(fetches: seq<Fetch>, i: nat)
    requires i < |fetches| && DistinctMappings(fetches)
    ensures FindFetch(fetches[..i] + fetches[i + 1..], fetches[i].fetchedMapping).None?
    ensures forall k :: 0 <= k < |fetches| && k != i ==>
              FindFetch(fetches[..i] + fetches[i + 1..], fetches[k].fetchedMapping) == Some(fetches[k])
  {
    var rest := fetches[..i] + fetches[i + 1..];
    assert forall j :: 0 <= j < |rest| ==> rest[j] == if j < i then fetches[j] else fetches[j + 1];
    forall k | 0 <= k < |fetches| && k != i
      ensures FindFetch(rest, fetches[k].fetchedMapping) == Some(fetches[k])
    {
      var r := FindFetch(rest, fetches[k].fetchedMapping);
      var kk := if k < i then k else k - 1;
      assert rest[kk] == fetches[k];
      assert r.Some?;
      var w :| 0 <= w < |rest| && rest[w] == r.value && r.value.fetchedMapping == fetches[k].fetchedMapping;
      var ww := if w < i then w else w + 1;
      assert rest[w] == fetches[ww];
      assert ww == k;
    }
  }
}

=== FILE: hana_dialect.dfy ===
/** The decision tables of the SAP HANA dialect: how driver error codes are classified, the
    `extract` pattern per temporal unit, the quoting rule applied after identifier
    normalisation, the guard on tables named TYPE, the JDBC type-descriptor overrides, and
    how `contributeTypes` resolves the configuration into the dialect's state. The
    prefetch-size probe against the database is an input here. */
module HanaDialect {
  import opened Wrappers
  import opened Text
  import opened HanaLobs

  // ---------------------------------------------------------------------------
  // JDBC type codes (java.sql.Types)

  const FLOAT := 6
  const REAL := 7
  const DOUBLE := 8
  const NUMERIC := 2
  const DECIMAL := 3
  const CHAR := 1
  const VARCHAR := 12
  const NCHAR := -15
  const NVARCHAR := -9
  const TINYINT := -6
  const BOOLEAN := 16
  const BINARY := -2
  const VARBINARY := -3
  const TIMESTAMP := 93
  const TIMESTAMP_WITH_TIMEZONE := 2014
  const BLOB := 2004
  const CLOB := 2005
  const NCLOB := 2011

  /** The prefetch size used when neither the configuration nor the database supplies one. */
  const MaxLobPrefetchSizeDefault := 1024

  // ---------------------------------------------------------------------------
  // Error classification

  /** The exceptions the classifier returns. */
  datatype JdbcException =
    | LockTimeout
    | LockAcquisition
    | ConstraintViolation(constraintName: Option<string>)

  /** The exception the classifier throws instead of returning. */
  datatype GrammarError = SqlGrammar(errorCode: int)

  /** Classifies a HANA error code. `Success(None)` leaves the exception to the generic
      conversion; a grammar error is thrown rather than returned. `extractedConstraintName` is
      what the dialect's constraint-name extractor reads from the exception; it is consulted
      only for constraint violations. */
  function ConvertSqlException(errorCode: int, extractedConstraintName: Option<string>)
    : (r: Result<Option<JdbcException>, GrammarError>)
    ensures r == Success(Some(LockTimeout)) <==> errorCode in {131, 146}
    ensures r == Success(Some(LockAcquisition)) <==> errorCode in {132, 133}
    ensures r.Failure? <==> errorCode in {257, 259, 260, 261, 262, 263}
    ensures r.Failure? ==> r.error == SqlGrammar(errorCode)
    ensures r.Success? && r.value.Some? && r.value.value.ConstraintViolation? <==> errorCode in {287, 301, 461, 462}
    ensures r.Success? && r.value.Some? && r.value.value.ConstraintViolation? ==>
              r.value.value.constraintName == extractedConstraintName
    ensures r == Success(None) <==> errorCode !in {131, 146, 132, 133, 257, 259, 260, 261, 262, 263, 287, 301, 461, 462}
  {
    if errorCode == 131 then Success(Some(LockTimeout))
    else if errorCode == 146 then Success(Some(LockTimeout))
    else if errorCode == 132 then Success(Some(LockAcquisition))
    else if errorCode == 133 then Success(Some(LockAcquisition))
    else if errorCode == 257 || (259 <= errorCode && errorCode <= 263) then Failure(SqlGrammar(errorCode))
    else if errorCode == 287 || errorCode == 301 || errorCode == 461 || errorCode == 462 then
      Success(Some(ConstraintViolation(extractedConstraintName)))
    else Success(None)
  }

  /** The classification ignores everything but the code: the constraint name reaches the
      result only for constraint violations, and 258, between the grammar codes, is left
      unclassified. */
  lemma ClassificationDependsOnCodeOnly(errorCode: int, n1: Option<string>, n2: Option<string>)
    requires errorCode !in {287, 301, 461, 462}
    ensures ConvertSqlException(errorCode, n1) == ConvertSqlException(errorCode, n2)
    ensures ConvertSqlException(258, n1) == Success(None)
  {
  }

  // ---------------------------------------------------------------------------
  // extract()

  /** The temporal units `extract` distinguishes; `OtherUnit` stands for every other unit
      (year, month, week, hour, ...), whose pattern does not depend on which unit it is. */
  datatype TemporalUnit = DayOfWeek | Day | DayOfMonth | DayOfYear | OtherUnit

  /** The SQL pattern for `extract(unit from ?2)`; `?1` stands for the unit's own name. */
  function ExtractPattern(unit: TemporalUnit): (r: string)
    ensures unit == DayOfWeek ==> r == "(mod(weekday(?2)+1,7)+1)"
    ensures unit == Day || unit == DayOfMonth ==> r == "dayofmonth(?2)"
    ensures unit == DayOfYear ==> r == "dayofyear(?2)"
    ensures r == "?1(?2)" <==> unit.OtherUnit?
  {
    match unit
    case DayOfWeek => "(mod(weekday(?2)+1,7)+1)"
    case Day => "dayofmonth(?2)"
    case DayOfMonth => "dayofmonth(?2)"
    case DayOfYear => "dayofyear(?2)"
    case OtherUnit => "?1(?2)"
  }

  /** `p` holds the argument placeholder `?2` at index `k`. */
  predicate ArgumentAt(p: string, k: int) {
    0 <= k && k + 2 <= |p| && p[k..k + 2] == "?2"
  }

  /** Every pattern applies a function to the unit's argument `?2`. */
  lemma ExtractPatternUsesArgument(unit: TemporalUnit)
    ensures exists k :: ArgumentAt(ExtractPattern(unit), k)
  {
    var p := ExtractPattern(unit);
    match unit
    case DayOfWeek => assert ArgumentAt(p, 13);
    case Day => assert ArgumentAt(p, 11);
    case DayOfMonth => assert ArgumentAt(p, 11);
    case DayOfYear => assert ArgumentAt(p, 10);
    case OtherUnit => assert ArgumentAt(p, 3);
  }

  // ---------------------------------------------------------------------------
  // Identifier quoting

  datatype Identifier = Identifier(text: string, isQuoted: bool)

  function Quote(id: Identifier): (r: Identifier)
    ensures r.text == id.text && r.isQuoted
  {
    Identifier(id.text, true)
  }

  /** The dialect's step after the generic normalisation (`normalized`): an unquoted name
      that is not made of word characters only (`\w+`) is quoted. */
  function NormalizeQuoting(normalized: Option<Identifier>): (r: Option<Identifier>)
    ensures r.None? <==> normalized.None?
    ensures r.Some? ==> r.value.text == normalized.value.text
    ensures r.Some? ==> (r.value.isQuoted <==> normalized.value.isQuoted || !IsWordText(normalized.value.text))
  {
    match normalized
    case None => None
    case Some(id) => if !id.isQuoted && !IsWordText(id.text) then Some(Quote(id)) else Some(id)
  }

  /** The quoting step is idempotent, and a name it leaves unquoted is a non-empty word. */
  lemma NormalizeQuotingIdempotent(normalized: Option<Identifier>)
    ensures NormalizeQuoting(NormalizeQuoting(normalized)) == NormalizeQuoting(normalized)
    ensures var r := NormalizeQuoting(normalized);
            r.Some? && !r.value.isQuoted ==> |r.value.text| > 0 && forall i :: 0 <= i < |r.value.text| ==> IsWordChar(r.value.text[i])
  {
  }

  /** Names with characters such as ':' are always quoted. */
  lemma ColonIsQuoted(text: string, i: nat)
    requires i < |text| && text[i] == ':'
    ensures NormalizeQuoting(Some(Identifier(text, false))) == Some(Identifier(text, true))
  {
    assert !IsWordChar(text[i]);
  }

  /** The guard of the table exporter: DDL for a table is rewritten only when the table's name
      is unquoted and lower-cases to "type". */
  function TableNameNeedsTypeQuoting(name: Option<Identifier>): (r: bool)
    ensures r <==> && name.Some? && !name.value.isQuoted && |name.value.text| == 4
                   && name.value.text[0] in "tT" && name.value.text[1] in "yY"
                   && name.value.text[2] in "pP" && name.value.text[3] in "eE"
  {
    name.Some? && !name.value.isQuoted && ToLowerAscii(name.value.text) == "type"
  }

  // ---------------------------------------------------------------------------
  // Dialect state

  /** The descriptor a JDBC type code is read and bound with. */
  datatype TypeDescriptor =
    | HanaClobDescriptor(maxLobPrefetchSize: int, useUnicodeStringTypes: bool)
    | HanaNClobDescriptor(maxLobPrefetchSize: int)
    | HanaBlobDescriptor(maxLobPrefetchSize: int)
    | SmallIntDescriptor
    | VarcharDescriptor
    | NVarcharDescriptor
    | CharDescriptor
    | NCharDescriptor
    | DoubleDescriptor
    | DecimalDescriptor
    | NumericDescriptor
    | BaseDialectOverride(sqlCode: int)   // the generic dialect's answer, not part of this model

  /** The Hibernate types the dialect maps JDBC codes to. */
  datatype HibernateType = MaterializedNClobType | MaterializedClobType | MaterializedBlobType | NStringType | BigDecimalType

  /** A column-type registration: a JDBC code, with or without a capacity bound. */
  datatype ColumnTypeKey = ColumnTypeKey(code: int, capacity: Option<nat>)

  type ColumnTypes = map<ColumnTypeKey, string>

  /** `m` maps `k` to `v`. */
  predicate Maps<K, V(==)>(m: map<K, V>, k: K, v: V) {
    k in m && m[k] == v
  }

  /** The dialect's mutable configuration: the prefetch sizes of its clob, nclob and blob
      descriptors, the clob descriptor's unicode flag, the three switches, and the column and
      Hibernate types registered so far. */
  datatype DialectState = DialectState(
    nClobPrefetchSize: int,
    blobPrefetchSize: int,
    clobPrefetchSize: int,
    clobUseUnicode: bool,
    useUnicodeStringTypes: bool,
    useLegacyBooleanType: bool,
    treatDoubleTypedFieldsAsDecimal: bool,
    columnTypes: ColumnTypes,
    hibernateTypes: map<int, HibernateType>)

  function Register(types: ColumnTypes, code: int, name: string): (r: ColumnTypes)
    ensures r == types[ColumnTypeKey(code, None) := name]
  {
    types[ColumnTypeKey(code, None) := name]
  }

  function RegisterBounded(types: ColumnTypes, code: int, capacity: nat, name: string): (r: ColumnTypes)
    ensures r == types[ColumnTypeKey(code, Some(capacity)) := name]
  {
    types[ColumnTypeKey(code, Some(capacity)) := name]
  }

  /** The column types the constructor registers. */
  const InitialColumnTypes: ColumnTypes :=
    map[ColumnTypeKey(DECIMAL, None) := "decimal($p, $s)",
        ColumnTypeKey(NUMERIC, None) := "decimal($p, $s)",
        ColumnTypeKey(DOUBLE, None) := "double",
        ColumnTypeKey(TIMESTAMP, None) := "timestamp",
        ColumnTypeKey(TIMESTAMP_WITH_TIMEZONE, None) := "timestamp",
        ColumnTypeKey(BINARY, Some(5000)) := "varbinary($l)",
        ColumnTypeKey(VARBINARY, Some(5000)) := "varbinary($l)",
        ColumnTypeKey(BINARY, None) := "blob",
        ColumnTypeKey(VARBINARY, None) := "blob",
        ColumnTypeKey(CHAR, None) := "varchar($l)",
        ColumnTypeKey(NCHAR, None) := "nvarchar($l)",
        ColumnTypeKey(VARCHAR, Some(5000)) := "varchar($l)",
        ColumnTypeKey(NVARCHAR, Some(5000)) := "nvarchar($l)",
        ColumnTypeKey(VARCHAR, None) := "clob",
        ColumnTypeKey(NVARCHAR, None) := "nclob",
        ColumnTypeKey(TINYINT, None) := "smallint"]

  /** The Hibernate types the constructor registers. */
  const InitialHibernateTypes: map<int, HibernateType> :=
    map[NCLOB := MaterializedNClobType, CLOB := MaterializedClobType,
        BLOB := MaterializedBlobType, NVARCHAR := NStringType]

  /** The state the HANA constructor leaves behind, after the generic constructor it starts
      with (whose registrations are not part of this model); `useUnicodeDefault` is the
      subclass's default for unicode string types. The HANA constructor itself registers no
      BOOLEAN and no CLOB column type: those come only from `contributeTypes`. */
  function InitialDialect(useUnicodeDefault: bool): (d: DialectState)
    ensures d.nClobPrefetchSize == d.blobPrefetchSize == d.clobPrefetchSize == MaxLobPrefetchSizeDefault
    ensures d.clobUseUnicode == d.useUnicodeStringTypes == useUnicodeDefault
    ensures !d.useLegacyBooleanType && !d.treatDoubleTypedFieldsAsDecimal
    ensures ColumnTypeKey(BOOLEAN, None) !in d.columnTypes && ColumnTypeKey(CLOB, None) !in d.columnTypes
  {
    DialectState(MaxLobPrefetchSizeDefault, MaxLobPrefetchSizeDefault, MaxLobPrefetchSizeDefault,
                 useUnicodeDefault, useUnicodeDefault, false, false, InitialColumnTypes, InitialHibernateTypes)
  }

  /** Whatever the unicode default, a new dialect maps long strings to clob and nclob, binary
      data up to 5000 bytes to varbinary, and tinyint to smallint. */
  lemma InitialColumnTypeChoices(useUnicodeDefault: bool)
    ensures var t := InitialDialect(useUnicodeDefault).columnTypes;
            && t[ColumnTypeKey(VARCHAR, None)] == "clob"
            && t[ColumnTypeKey(NVARCHAR, None)] == "nclob"
            && t[ColumnTypeKey(VARCHAR, Some(5000))] == "varchar($l)"
            && t[ColumnTypeKey(BINARY, Some(5000))] == "varbinary($l)"
            && t[ColumnTypeKey(TINYINT, None)] == "smallint"
            && t[ColumnTypeKey(NUMERIC, None)] == t[ColumnTypeKey(DECIMAL, None)]
  {
  }

  /** The descriptor the dialect substitutes for a JDBC type code. */
  function GetSqlTypeDescriptorOverride(d: DialectState, sqlCode: int): (r: TypeDescriptor)
    ensures sqlCode == CLOB ==> r == HanaClobDescriptor(d.clobPrefetchSize, d.clobUseUnicode)
    ensures sqlCode == NCLOB ==> r == HanaNClobDescriptor(d.nClobPrefetchSize)
    ensures sqlCode == BLOB ==> r == HanaBlobDescriptor(d.blobPrefetchSize)
    ensures sqlCode == TINYINT ==> r == SmallIntDescriptor
    ensures sqlCode == VARCHAR ==> (r == NVarcharDescriptor <==> d.useUnicodeStringTypes) && r in {NVarcharDescriptor, VarcharDescriptor}
    ensures sqlCode == CHAR ==> (r == NCharDescriptor <==> d.useUnicodeStringTypes) && r in {NCharDescriptor, CharDescriptor}
    ensures sqlCode == DOUBLE ==> (r == DecimalDescriptor <==> d.treatDoubleTypedFieldsAsDecimal) && r in {DecimalDescriptor, DoubleDescriptor}
    ensures r == BaseDialectOverride(sqlCode) <==> sqlCode !in {CLOB, NCLOB, BLOB, TINYINT, VARCHAR, CHAR, DOUBLE}
  {
    if sqlCode == CLOB then HanaClobDescriptor(d.clobPrefetchSize, d.clobUseUnicode)
    else if sqlCode == NCLOB then HanaNClobDescriptor(d.nClobPrefetchSize)
    else if sqlCode == BLOB then HanaBlobDescriptor(d.blobPrefetchSize)
    else if sqlCode == TINYINT then SmallIntDescriptor
    else if sqlCode == VARCHAR then (if d.useUnicodeStringTypes then NVarcharDescriptor else VarcharDescriptor)
    else if sqlCode == CHAR then (if d.useUnicodeStringTypes then NCharDescriptor else CharDescriptor)
    else if sqlCode == DOUBLE then (if d.treatDoubleTypedFieldsAsDecimal then DecimalDescriptor else DoubleDescriptor)
    else BaseDialectOverride(sqlCode)
  }

  // ---------------------------------------------------------------------------
  // contributeTypes

  /** The four dialect settings, already converted; None when a setting is absent. */
  datatype Settings = Settings(
    maxLobPrefetchSize: Option<int>,
    useUnicodeStringTypes: Option<bool>,
    useLegacyBooleanType: Option<bool>,
    treatDoubleTypedFieldsAsDecimal: Option<bool>)

  /** The parts of the type configuration the dialect contributes to. */
  datatype TypeContributions = TypeContributions(
    jdbcToHibernateTypes: map<int, set<HibernateType>>,
    jdbcDescriptors: map<int, TypeDescriptor>,
    doubleJavaTypeAsNumeric: bool)

  function SettingOr<T>(setting: Option<T>, default: T): (r: T)
    ensures setting.Some? ==> r == setting.value
    ensures setting.None? ==> r == default
  {
    match setting
    case Some(v) => v
    case None => default
  }

  /** The prefetch size in effect: the configured one, else the one the database reported
      (`probed`), else 1024. */
  function ResolveMaxLobPrefetchSize(probed: Option<int>, setting: Option<int>): (r: int)
    ensures setting.Some? ==> r == setting.value
    ensures setting.None? && probed.Some? ==> r == probed.value
    ensures setting.None? && probed.None? ==> r == MaxLobPrefetchSizeDefault
  {
    SettingOr(setting, SettingOr(probed, MaxLobPrefetchSizeDefault))
  }

  /** The column types registered when unicode string types are in use. */
  const UnicodeKeys: set<ColumnTypeKey> :=
    {ColumnTypeKey(CHAR, None), ColumnTypeKey(VARCHAR, Some(5000)), ColumnTypeKey(VARCHAR, None), ColumnTypeKey(CLOB, None)}

  /** Every column type `contributeTypes` may register. */
  const ContributedKeys: set<ColumnTypeKey> := UnicodeKeys + {ColumnTypeKey(BOOLEAN, None)}

  /** The JDBC codes remapped when double-typed fields are treated as decimal. */
  const DecimalCodes: set<int> := {FLOAT, REAL, DOUBLE}

  /** The registrations made when unicode string types are in use; every other column type
      keeps its value. */
  function UnicodeColumnTypes(types: ColumnTypes): (r: ColumnTypes)
    ensures r.Keys == types.Keys + UnicodeKeys
    ensures forall k :: k in types && k !in UnicodeKeys ==> r[k] == types[k]
    ensures r[ColumnTypeKey(CHAR, None)] == "nvarchar($l)"
    ensures r[ColumnTypeKey(VARCHAR, Some(5000))] == "nvarchar($l)"
    ensures r[ColumnTypeKey(VARCHAR, None)] == "nclob"
    ensures r[ColumnTypeKey(CLOB, None)] == "nclob"
  {
    Register(Register(RegisterBounded(Register(types, CHAR, "nvarchar($l)"), VARCHAR, 5000, "nvarchar($l)"),
                      VARCHAR, "nclob"), CLOB, "nclob")
  }

  /** The Hibernate-type registrations made when double-typed fields are treated as decimal;
      every other code keeps its type. */
  function DecimalHibernateTypes(types: map<int, HibernateType>): (r: map<int, HibernateType>)
    ensures r.Keys == types.Keys + DecimalCodes
    ensures forall code :: code in DecimalCodes ==> r[code] == BigDecimalType
    ensures forall code :: code in types && code !in DecimalCodes ==> r[code] == types[code]
  {
    types[FLOAT := BigDecimalType][REAL := BigDecimalType][DOUBLE := BigDecimalType]
  }

  /** The type-configuration changes made when double-typed fields are treated as decimal:
      FLOAT, REAL and DOUBLE map to BigDecimal only and are read with the numeric descriptor;
      every other code keeps its types and its descriptor. */
  function DecimalContributions(tc: TypeContributions): (r: TypeContributions)
    ensures r.doubleJavaTypeAsNumeric
    ensures forall code :: code in DecimalCodes ==>
              Maps(r.jdbcToHibernateTypes, code, {BigDecimalType}) && Maps(r.jdbcDescriptors, code, NumericDescriptor)
    ensures r.jdbcToHibernateTypes.Keys == tc.jdbcToHibernateTypes.Keys + DecimalCodes
    ensures r.jdbcDescriptors.Keys == tc.jdbcDescriptors.Keys + DecimalCodes
    ensures forall code :: code in tc.jdbcToHibernateTypes && code !in DecimalCodes ==>
              r.jdbcToHibernateTypes[code] == tc.jdbcToHibernateTypes[code]
    ensures forall code :: code in tc.jdbcDescriptors && code !in DecimalCodes ==>
              r.jdbcDescriptors[code] == tc.jdbcDescriptors[code]
  {
    TypeContributions(
      tc.jdbcToHibernateTypes[FLOAT := {BigDecimalType}][REAL := {BigDecimalType}][DOUBLE := {BigDecimalType}],
      tc.jdbcDescriptors[FLOAT := NumericDescriptor][REAL := NumericDescriptor][DOUBLE := NumericDescriptor],
      true)
  }

  /** The column types after `contributeTypes`: the unicode registrations when `unicode`,
      then the TINYINT boolean when `legacy`; every other column type keeps its value. */
  function ContributedColumnTypes(types: ColumnTypes, unicode: bool, legacy: bool): (r: ColumnTypes)
    ensures types.Keys <= r.Keys <= types.Keys + ContributedKeys
    ensures forall k :: k in types && k !in ContributedKeys ==> r[k] == types[k]
    ensures unicode ==>
              && Maps(r, ColumnTypeKey(CHAR, None), "nvarchar($l)")
              && Maps(r, ColumnTypeKey(VARCHAR, Some(5000)), "nvarchar($l)")
              && Maps(r, ColumnTypeKey(VARCHAR, None), "nclob")
              && Maps(r, ColumnTypeKey(CLOB, None), "nclob")
    ensures legacy ==> Maps(r, ColumnTypeKey(BOOLEAN, None), "tinyint")
    ensures !unicode && !legacy ==> r == types
  {
    var withUnicode := if unicode then UnicodeColumnTypes(types) else types;
    if legacy then Register(withUnicode, BOOLEAN, "tinyint") else withUnicode
  }

  /** Resolves the configuration into the dialect's state and the type contributions.
      `supportsAsciiStringTypes` and `useUnicodeDefault` are the subclass's answers. Each
      descriptor is replaced only when its settings differ, which leaves the same value as
      always replacing it. */
  function ContributeTypes(d: DialectState, tc: TypeContributions, probed: Option<int>, settings: Settings,
                           supportsAsciiStringTypes: bool, useUnicodeDefault: bool)
    : (r: (DialectState, TypeContributions))
    ensures var (nd, _) := r;
            var size := ResolveMaxLobPrefetchSize(probed, settings.maxLobPrefetchSize);
            && nd.nClobPrefetchSize == nd.blobPrefetchSize == size
            && (supportsAsciiStringTypes ==>
                  && nd.clobPrefetchSize == size
                  && nd.useUnicodeStringTypes == nd.clobUseUnicode == SettingOr(settings.useUnicodeStringTypes, useUnicodeDefault))
            && (!supportsAsciiStringTypes ==>
                  && nd.clobPrefetchSize == d.clobPrefetchSize
                  && nd.clobUseUnicode == d.clobUseUnicode
                  && nd.useUnicodeStringTypes == d.useUnicodeStringTypes)
            && nd.useLegacyBooleanType == (settings.useLegacyBooleanType == Some(true))
            && nd.treatDoubleTypedFieldsAsDecimal == (settings.treatDoubleTypedFieldsAsDecimal == Some(true))
    ensures var (nd, _) := r;
            supportsAsciiStringTypes && nd.useUnicodeStringTypes ==>
              && Maps(nd.columnTypes, ColumnTypeKey(CHAR, None), "nvarchar($l)")
              && Maps(nd.columnTypes, ColumnTypeKey(VARCHAR, Some(5000)), "nvarchar($l)")
              && Maps(nd.columnTypes, ColumnTypeKey(VARCHAR, None), "nclob")
              && Maps(nd.columnTypes, ColumnTypeKey(CLOB, None), "nclob")
    ensures var (nd, _) := r;
            nd.useLegacyBooleanType ==> Maps(nd.columnTypes, ColumnTypeKey(BOOLEAN, None), "tinyint")
    ensures var (nd, ntc) := r;
            nd.treatDoubleTypedFieldsAsDecimal ==>
              && (forall code :: code in DecimalCodes ==>
                    && Maps(nd.hibernateTypes, code, BigDecimalType)
                    && Maps(ntc.jdbcToHibernateTypes, code, {BigDecimalType})
                    && Maps(ntc.jdbcDescriptors, code, NumericDescriptor))
              && ntc.doubleJavaTypeAsNumeric
    ensures var (nd, ntc) := r;
            !nd.treatDoubleTypedFieldsAsDecimal ==> ntc == tc && nd.hibernateTypes == d.hibernateTypes
    ensures var (nd, ntc) := r;
            nd.treatDoubleTypedFieldsAsDecimal ==>
              && nd.hibernateTypes.Keys == d.hibernateTypes.Keys + DecimalCodes
              && (forall code :: code in d.hibernateTypes && code !in DecimalCodes ==>
                    nd.hibernateTypes[code] == d.hibernateTypes[code])
              && ntc.jdbcToHibernateTypes.Keys == tc.jdbcToHibernateTypes.Keys + DecimalCodes
              && (forall code :: code in tc.jdbcToHibernateTypes && code !in DecimalCodes ==>
                    ntc.jdbcToHibernateTypes[code] == tc.jdbcToHibernateTypes[code])
              && ntc.jdbcDescriptors.Keys == tc.jdbcDescriptors.Keys + DecimalCodes
              && (forall code :: code in tc.jdbcDescriptors && code !in DecimalCodes ==>
                    ntc.jdbcDescriptors[code] == tc.jdbcDescriptors[code])
    ensures d.columnTypes.Keys <= r.0.columnTypes.Keys <= d.columnTypes.Keys + ContributedKeys
    ensures forall k :: k in d.columnTypes && k !in ContributedKeys ==> r.0.columnTypes[k] == d.columnTypes[k]
    ensures var (nd, _) := r;
            (!(supportsAsciiStringTypes && nd.useUnicodeStringTypes) && !nd.useLegacyBooleanType)
              ==> nd.columnTypes == d.columnTypes
  {
    var size := ResolveMaxLobPrefetchSize(probed, settings.maxLobPrefetchSize);
    var unicode := if supportsAsciiStringTypes then SettingOr(settings.useUnicodeStringTypes, useUnicodeDefault)
                   else d.useUnicodeStringTypes;
    var clobSize := if supportsAsciiStringTypes then size else d.clobPrefetchSize;
    var clobUnicode := if supportsAsciiStringTypes then unicode else d.clobUseUnicode;
    var legacy := SettingOr(settings.useLegacyBooleanType, false);
    var types := ContributedColumnTypes(d.columnTypes, supportsAsciiStringTypes && unicode, legacy);
    var treatDouble := SettingOr(settings.treatDoubleTypedFieldsAsDecimal, false);
    var hibernateTypes := if treatDouble then DecimalHibernateTypes(d.hibernateTypes) else d.hibernateTypes;
    var ntc := if treatDouble then DecimalContributions(tc) else tc;
    (DialectState(size, size, clobSize, clobUnicode, unicode, legacy, treatDouble, types, hibernateTypes), ntc)
  }

  /** After `contributeTypes` the LOB descriptors the dialect substitutes carry the resolved
      prefetch size, and the string and double descriptors follow the resolved settings. */
  lemma ContributedOverridesAgree(d: DialectState, tc: TypeContributions, probed: Option<int>, settings: Settings,
                                  supportsAsciiStringTypes: bool, useUnicodeDefault: bool)
    ensures var nd := ContributeTypes(d, tc, probed, settings, supportsAsciiStringTypes, useUnicodeDefault).0;
            var size := ResolveMaxLobPrefetchSize(probed, settings.maxLobPrefetchSize);
            && GetSqlTypeDescriptorOverride(nd, BLOB) == HanaBlobDescriptor(size)
            && GetSqlTypeDescriptorOverride(nd, NCLOB) == HanaNClobDescriptor(size)
            && (supportsAsciiStringTypes ==>
                  && GetSqlTypeDescriptorOverride(nd, CLOB).maxLobPrefetchSize == size
                  && ((GetSqlTypeDescriptorOverride(nd, VARCHAR) == NVarcharDescriptor)
                        <==> SettingOr(settings.useUnicodeStringTypes, useUnicodeDefault)))
            && ((GetSqlTypeDescriptorOverride(nd, DOUBLE) == DecimalDescriptor)
                  <==> settings.treatDoubleTypedFieldsAsDecimal == Some(true))
  {
  }

  /** Registering the unicode column types a second time changes nothing. */
  lemma UnicodeColumnTypesIdempotent(types: ColumnTypes)
    ensures UnicodeColumnTypes(UnicodeColumnTypes(types)) == UnicodeColumnTypes(types)
  {
    var once := UnicodeColumnTypes(types);
    var twice := UnicodeColumnTypes(once);
    assert forall k :: k in twice ==> twice[k] == once[k];
  }

  /** Registering the contributed column types a second time changes nothing. */
  lemma ContributedColumnTypesIdempotent(types: ColumnTypes, unicode: bool, legacy: bool)
    ensures var once := ContributedColumnTypes(types, unicode, legacy);
            ContributedColumnTypes(once, unicode, legacy) == once
  {
    if unicode {
      UnicodeColumnTypesIdempotent(types);
    }
    var once := ContributedColumnTypes(types, unicode, legacy);
    var twice := ContributedColumnTypes(once, unicode, legacy);
    assert forall k :: k in twice ==> twice[k] == once[k];
  }

  /** Treating double-typed fields as decimal a second time changes nothing. */
  lemma DecimalIdempotent(types: map<int, HibernateType>, tc: TypeContributions)
    ensures DecimalHibernateTypes(DecimalHibernateTypes(types)) == DecimalHibernateTypes(types)
    ensures DecimalContributions(DecimalContributions(tc)) == DecimalContributions(tc)
  {
    var once := DecimalContributions(tc);
    var twice := DecimalContributions(once);
    assert twice.jdbcToHibernateTypes == once.jdbcToHibernateTypes;
    assert twice.jdbcDescriptors == once.jdbcDescriptors;
  }

  /** Contributing the same configuration twice leaves the dialect as the first time did. */
  lemma {:induction false} ContributeTypesIdempotent(d: DialectState, tc: TypeContributions, probed: Option<int>, settings: Settings,
                                                     supportsAsciiStringTypes: bool, useUnicodeDefault: bool)
    ensures var once := ContributeTypes(d, tc, probed, settings, supportsAsciiStringTypes, useUnicodeDefault);
            ContributeTypes(once.0, once.1, probed, settings, supportsAsciiStringTypes, useUnicodeDefault) == once
  {
    var once := ContributeTypes(d, tc, probed, settings, supportsAsciiStringTypes, useUnicodeDefault);
    var twice := ContributeTypes(once.0, once.1, probed, settings, supportsAsciiStringTypes, useUnicodeDefault);
    ContributedColumnTypesIdempotent(d.columnTypes, supportsAsciiStringTypes && once.0.useUnicodeStringTypes,
                                     once.0.useLegacyBooleanType);
    assert twice.0.columnTypes == once.0.columnTypes;
    if once.0.treatDoubleTypedFieldsAsDecimal {
      DecimalIdempotent(d.hibernateTypes, tc);
    }
    assert twice.0.hibernateTypes == once.0.hibernateTypes;
    assert twice.1 == once.1;
  }

  /** A new dialect with no settings and nothing probed keeps its 1024-byte thresholds and
      its unicode default. */
  lemma DefaultsKeepInitialThresholds(useUnicodeDefault: bool, tc: TypeContributions, supportsAsciiStringTypes: bool)
    ensures var d := InitialDialect(useUnicodeDefault);
            var nd := ContributeTypes(d, tc, None, Settings(None, None, None, None), supportsAsciiStringTypes, useUnicodeDefault).0;
            && nd.nClobPrefetchSize == nd.blobPrefetchSize == nd.clobPrefetchSize == MaxLobPrefetchSizeDefault
            && nd.useUnicodeStringTypes == nd.clobUseUnicode == useUnicodeDefault
            && !nd.useLegacyBooleanType && !nd.treatDoubleTypedFieldsAsDecimal
  {
  }

  /** After `contributeTypes` the LOB handling follows the descriptors the dialect substitutes:
      blobs are materialized and stream-bound with the blob descriptor's prefetch size, and
      (with ASCII string support) clobs are read with `getNClob` exactly when VARCHAR is
      replaced by NVARCHAR. */
  lemma ContributedLobHandling(d: DialectState, tc: TypeContributions, probed: Option<int>, settings: Settings,
                               supportsAsciiStringTypes: bool, useUnicodeDefault: bool, rsBlob: DriverLob<Byte>)
    ensures var nd := ContributeTypes(d, tc, probed, settings, supportsAsciiStringTypes, useUnicodeDefault).0;
            var blob := GetSqlTypeDescriptorOverride(nd, BLOB);
            var clob := GetSqlTypeDescriptorOverride(nd, CLOB);
            var size := ResolveMaxLobPrefetchSize(probed, settings.maxLobPrefetchSize);
            && BlobBinderFor(false, true, blob.maxLobPrefetchSize) == HanaStreamBinding(size)
            && (ExtractLob(Some(rsBlob), blob.maxLobPrefetchSize).Materialized? <==> |rsBlob.content| >= size)
            && (supportsAsciiStringTypes ==>
                  ((ClobGetterFor(clob.useUnicodeStringTypes) == GetNClob)
                     <==> (GetSqlTypeDescriptorOverride(nd, VARCHAR) == NVarcharDescriptor)))
  {
  }

  /** How a boolean literal is rendered: the generic dialect's form (`baseValue`) under the
      legacy TINYINT mapping, else "true" or "false". */
  function ToBooleanValueString(d: DialectState, b: bool, baseValue: string): (r: string)
    ensures d.useLegacyBooleanType ==> r == baseValue
    ensures !d.useLegacyBooleanType ==> (r == "true" <==> b) && r in {"true", "false"}
  {
    if d.useLegacyBooleanType then baseValue else if b then "true" else "false"
  }
}

=== FILE: hana_lobs.dfy ===
/** Large objects under the SAP HANA dialect. The HANA driver closes a LOB when its result
    set closes, so a LOB whose reported length reaches the prefetch threshold is read into
    an in-memory buffer (`MaterializedBlob`, `MaterializedNClob`) at extraction time. The
    buffers are modelled as values; each operation returns the new buffer and its result,
    or the exception the source raises. Positions are one-based, as in JDBC. */
module HanaLobs {
  import opened Wrappers

  type Byte = b: int | 0 <= b < 256

  /** The exceptions the buffers raise. */
  datatype LobError =
    | NullPointer          // the buffer was freed
    | IndexOutOfBounds     // an index outside the content
    | NegativeArraySize    // a negative new length
    | IllegalArgument      // a range whose end precedes its start

  function Zeros(n: nat): (r: seq<Byte>)
    ensures |r| == n && forall i :: 0 <= i < n ==> r[i] == 0
  {
    seq(n, i => 0)
  }

  /** `Arrays.copyOf`: the first `n` bytes, padded with zeros past the end of the array. */
  function CopyOf(a: seq<Byte>, n: int): (r: Result<seq<Byte>, LobError>)
    ensures r.Failure? <==> n < 0
    ensures r.Failure? ==> r.error == NegativeArraySize
    ensures r.Success? ==> |r.value| == n && forall i :: 0 <= i < n ==> r.value[i] == if i < |a| then a[i] else 0
  {
    if n < 0 then Failure(NegativeArraySize)
    else if n <= |a| then Success(a[..n])
    else Success(a + Zeros(n - |a|))
  }

  /** `Arrays.copyOfRange(a, from, to)`: the bytes in [from, to), padded with zeros past the end. */
  function CopyOfRange(a: seq<Byte>, from: int, to: int): (r: Result<seq<Byte>, LobError>)
    ensures r.Failure? <==> to < from || from < 0 || from > |a|
    ensures to < from ==> r == Failure(IllegalArgument)
    ensures r.Success? ==> |r.value| == to - from
                           && forall i :: 0 <= i < to - from ==> r.value[i] == if from + i < |a| then a[from + i] else 0
  {
    if to < from then Failure(IllegalArgument)
    else if from < 0 || from > |a| then Failure(IndexOutOfBounds)
    else if to <= |a| then Success(a[from..to])
    else Success(a[from..] + Zeros(to - |a|))
  }

  // ---------------------------------------------------------------------------
  // MaterializedBlob

  /** The byte buffer; None once freed. */
  datatype MaterializedBlob = MaterializedBlob(bytes: Option<seq<Byte>>)

  function NewBlob(bytes: seq<Byte>): MaterializedBlob {
    MaterializedBlob(Some(bytes))
  }

  function BlobLength(b: MaterializedBlob): (r: Result<nat, LobError>)
    ensures r.Failure? <==> b.bytes.None?
    ensures r.Success? ==> r.value == |b.bytes.value|
  {
    match b.bytes
    case None => Failure(NullPointer)
    case Some(bytes) => Success(|bytes|)
  }

  /** `getBytes(pos, length)`: the `length` bytes from position `pos`, zero-padded past the end. */
  function BlobGetBytes(b: MaterializedBlob, pos: int, length: int): (r: Result<seq<Byte>, LobError>)
    ensures b.bytes.None? ==> r == Failure(NullPointer)
    ensures b.bytes.Some? ==> (r.Success? <==> length >= 0 && 1 <= pos <= |b.bytes.value| + 1)
    ensures r.Success? ==> |r.value| == length
    ensures r.Success? ==> forall i :: 0 <= i < length ==>
              r.value[i] == if pos - 1 + i < |b.bytes.value| then b.bytes.value[pos - 1 + i] else 0
    ensures b.bytes.Some? && length < 0 ==> r == Failure(IllegalArgument)
  {
    match b.bytes
    case None => Failure(NullPointer)
    case Some(bytes) => CopyOfRange(bytes, pos - 1, pos - 1 + length)
  }

  /** `setBytes(pos, data)`: first grows the buffer with zeros to `pos - 1 + |data|` bytes when
      it is shorter (also when `data` is empty), then copies `data` in from position `pos` and
      returns how many bytes were copied. A position before the first byte fails as soon as a
      byte is to be copied into a non-empty buffer. */
  function BlobSetBytes(b: MaterializedBlob, pos: int, data: seq<Byte>): (r: Result<(MaterializedBlob, int), LobError>)
    ensures b.bytes.None? ==> r == Failure(NullPointer)
    ensures b.bytes.Some? ==>
              (r.Success? <==> pos >= 1 || |data| == 0 || (|b.bytes.value| == 0 && pos - 1 + |data| <= 0))
    ensures r.Failure? && b.bytes.Some? ==> r.error == IndexOutOfBounds
    ensures r.Success? ==>
              var old_ := b.bytes.value;
              var (nb, written) := r.value;
              var start := pos - 1;
              && written == (if pos >= 1 then |data| else 0)
              && nb.bytes.Some?
              && |nb.bytes.value| == (if |old_| < start + |data| then start + |data| else |old_|)
              && forall i :: 0 <= i < |nb.bytes.value| ==>
                   nb.bytes.value[i] == if start <= i < start + |data| then data[i - start]
                                        else if i < |old_| then old_[i] else 0
  {
    match b.bytes
    case None => Failure(NullPointer)
    case Some(bytes) =>
      var newLength := pos - 1 + |data|;
      var grown := if |bytes| < newLength then bytes + Zeros(newLength - |bytes|) else bytes;
      if |data| == 0 || |grown| == 0 then Success((MaterializedBlob(Some(grown)), 0))
      else if pos < 1 then Failure(IndexOutOfBounds)
      else
        var start := pos - 1;
        Success((MaterializedBlob(Some(grown[..start] + data + grown[start + |data|..])), |data|))
  }

  /** `truncate(len)`: keeps the first `len` bytes; a length past the end pads with zeros. */
  function BlobTruncate(b: MaterializedBlob, len: int): (r: Result<MaterializedBlob, LobError>)
    ensures b.bytes.None? ==> r == Failure(NullPointer)
    ensures b.bytes.Some? ==> (r.Success? <==> len >= 0)
    ensures r.Success? && len <= |b.bytes.value| ==> r.value.bytes == Some(b.bytes.value[..len])
    ensures r.Success? && len > |b.bytes.value| ==> r.value.bytes == Some(b.bytes.value + Zeros(len - |b.bytes.value|))
  {
    match b.bytes
    case None => Failure(NullPointer)
    case Some(bytes) =>
      match CopyOf(bytes, len)
      case Failure(e) => Failure(e)
      case Success(copy) =>
        assert len <= |bytes| ==> copy == bytes[..len];
        assert len > |bytes| ==> copy == bytes + Zeros(len - |bytes|);
        Success(MaterializedBlob(Some(copy)))
  }

  function BlobFree(b: MaterializedBlob): (r: MaterializedBlob)
    ensures r.bytes.None?
  {
    MaterializedBlob(None)
  }

  /** After `free` every operation on the blob fails. */
  lemma FreedBlobFails(b: MaterializedBlob, pos: int, len: int, data: seq<Byte>)
    ensures var f := BlobFree(b);
            && BlobLength(f) == Failure(NullPointer)
            && BlobGetBytes(f, pos, len) == Failure(NullPointer)
            && BlobSetBytes(f, pos, data) == Failure(NullPointer)
            && BlobTruncate(f, len) == Failure(NullPointer)
  {
  }

  /** Writing N bytes into an empty blob, truncating to M <= N and reading the whole blob back
      yields the first M bytes written. */
  lemma WriteTruncateRead(data: seq<Byte>, m: nat)
    requires m <= |data|
    ensures BlobSetBytes(NewBlob([]), 1, data).Success?
    ensures var written := BlobSetBytes(NewBlob([]), 1, data).value.0;
            && BlobTruncate(written, m).Success?
            && var truncated := BlobTruncate(written, m).value;
               && BlobLength(truncated) == Success(m)
               && BlobGetBytes(truncated, 1, m) == Success(data[..m])
  {
    var written := BlobSetBytes(NewBlob([]), 1, data).value.0;
    assert written.bytes.value == data;
    var truncated := BlobTruncate(written, m).value;
    assert truncated.bytes.value == data[..m];
    assert truncated.bytes.value[0..m] == data[..m];
  }

  // ---------------------------------------------------------------------------
  // MaterializedNClob

  /** The character buffer; None once freed. */
  datatype MaterializedNClob = MaterializedNClob(data: Option<string>)

  function NewNClob(data: string): MaterializedNClob {
    MaterializedNClob(Some(data))
  }

  function NClobLength(c: MaterializedNClob): (r: Result<nat, LobError>)
    ensures r.Failure? <==> c.data.None?
    ensures r.Success? ==> r.value == |c.data.value|
  {
    match c.data
    case None => Failure(NullPointer)
    case Some(data) => Success(|data|)
  }

  /** `truncate(len)` empties the content whatever `len` is, and also on a freed clob. */
  function NClobTruncate(c: MaterializedNClob, len: int): (r: MaterializedNClob)
    ensures r.data == Some("")
  {
    MaterializedNClob(Some(""))
  }

  /** `setString(pos, str)`: overwrites the characters from position `pos`; the content
      keeps its length, so `str` must fit inside it. Returns |str|. */
  function NClobSetString(c: MaterializedNClob, pos: int, str: string): (r: Result<(MaterializedNClob, int), LobError>)
    ensures c.data.None? ==> r == Failure(NullPointer)
    ensures c.data.Some? ==> (r.Success? <==> 1 <= pos && pos - 1 + |str| <= |c.data.value|)
    ensures r.Success? ==>
              var old_ := c.data.value;
              var (nc, written) := r.value;
              var start := pos - 1;
              && written == |str|
              && nc.data.Some? && |nc.data.value| == |old_|
              && nc.data.value[start..start + |str|] == str
              && nc.data.value[..start] == old_[..start]
              && nc.data.value[start + |str|..] == old_[start + |str|..]
  {
    match c.data
    case None => Failure(NullPointer)
    case Some(data) =>
      var start := pos - 1;
      if start < 0 || start > |data| || start + |str| > |data| then Failure(IndexOutOfBounds)
      else
        var nd := data[..start] + str + data[start + |str|..];
        assert nd[start..start + |str|] == str;
        assert nd[..start] == data[..start];
        assert nd[start + |str|..] == data[start + |str|..];
        Success((MaterializedNClob(Some(nd)), |str|))
  }

  /** `setString(pos, str, offset, len)`: overwrites `len` characters from position `pos` with
      the characters of `str` from `offset`. Returns `len`. */
  function NClobSetStringRange(c: MaterializedNClob, pos: int, str: string, offset: int, len: int)
    : (r: Result<(MaterializedNClob, int), LobError>)
    ensures c.data.None? ==> r == Failure(NullPointer)
    ensures c.data.Some? ==> (r.Success? <==> && 1 <= pos && pos - 1 + len <= |c.data.value|
                                              && 0 <= offset && 0 <= len && offset + len <= |str|)
    ensures r.Success? ==>
              var old_ := c.data.value;
              var (nc, written) := r.value;
              var start := pos - 1;
              && written == len
              && nc.data.Some? && |nc.data.value| == |old_|
              && nc.data.value[start..start + len] == str[offset..offset + len]
              && nc.data.value[..start] == old_[..start]
              && nc.data.value[start + len..] == old_[start + len..]
  {
    match c.data
    case None => Failure(NullPointer)
    case Some(data) =>
      var start := pos - 1;
      if start < 0 || start > |data| then Failure(IndexOutOfBounds)
      else if offset < 0 || len < 0 || offset + len > |str| then Failure(IndexOutOfBounds)
      else if start + len > |data| then Failure(IndexOutOfBounds)
      else
        var piece := str[offset..offset + len];
        var nd := data[..start] + piece + data[start + len..];
        assert nd[start..start + len] == piece;
        assert nd[..start] == data[..start];
        assert nd[start + len..] == data[start + len..];
        Success((MaterializedNClob(Some(nd)), len))
  }

  /** `getSubString(pos, length)`: the `length` characters from position `pos`. */
  function NClobGetSubString(c: MaterializedNClob, pos: int, length: int): (r: Result<string, LobError>)
    ensures c.data.None? ==> r == Failure(NullPointer)
    ensures c.data.Some? ==> (r.Success? <==> 1 <= pos && 0 <= length && pos - 1 + length <= |c.data.value|)
    ensures r.Success? ==> |r.value| == length
                           && forall i :: 0 <= i < length ==> r.value[i] == c.data.value[pos - 1 + i]
  {
    match c.data
    case None => Failure(NullPointer)
    case Some(data) =>
      var start := pos - 1;
      if start < 0 || length < 0 || start + length > |data| then Failure(IndexOutOfBounds)
      else Success(data[start..start + length])
  }

  function NClobFree(c: MaterializedNClob): (r: MaterializedNClob)
    ensures r.data.None?
  {
    MaterializedNClob(None)
  }

  /** Overwriting characters and reading the same range back returns what was written, and
      leaves the length unchanged. */
  lemma NClobWriteRead(c: MaterializedNClob, pos: int, str: string)
    requires c.data.Some? && 1 <= pos && pos - 1 + |str| <= |c.data.value|
    ensures NClobSetString(c, pos, str).Success?
    ensures var nc := NClobSetString(c, pos, str).value.0;
            && NClobGetSubString(nc, pos, |str|) == Success(str)
            && NClobLength(nc) == NClobLength(c)
  {
    var nc := NClobSetString(c, pos, str).value.0;
    assert nc.data.value[pos - 1..pos - 1 + |str|] == str;
  }

  /** After `free` only `truncate` succeeds, and it brings back an empty clob. */
  lemma FreedNClob(c: MaterializedNClob, pos: int, len: int, str: string)
    ensures var f := NClobFree(c);
            && NClobLength(f) == Failure(NullPointer)
            && NClobSetString(f, pos, str) == Failure(NullPointer)
            && NClobGetSubString(f, pos, len) == Failure(NullPointer)
            && NClobLength(NClobTruncate(f, len)) == Success(0)
  {
  }

  // ---------------------------------------------------------------------------
  // Searching a clob

  predicate MatchesAt(data: string, str: string, k: int) {
    0 <= k && k + |str| <= |data| && data[k..k + |str|] == str
  }

  /** The first index at or after `k` where `str` occurs, or -1. */
  function SearchFrom(data: string, str: string, k: nat): (r: int)
    requires k <= |data|
    ensures r == -1 || (k <= r && MatchesAt(data, str, r))
    ensures forall j :: k <= j && (r == -1 || j < r) ==> !MatchesAt(data, str, j)
    decreases |data| - k
  {
    if k + |str| > |data| then -1
    else if data[k..k + |str|] == str then k
    else if k == |data| then -1
    else SearchFrom(data, str, k + 1)
  }

  /** Where the empty string is found from `fromIndex`: the start, clamped to the text. */
  function EmptyMatchFrom(data: string, fromIndex: int): (r: nat)
    ensures r <= |data|
  {
    if fromIndex < 0 then 0 else if fromIndex > |data| then |data| else fromIndex
  }

  /** `String.indexOf(str, fromIndex)`: a start past the end finds only the empty string (at
      the end), a negative start searches from zero. */
  function IndexOfFrom(data: string, str: string, fromIndex: int): (r: int)
    ensures r == -1 || (MatchesAt(data, str, r) && (fromIndex <= r || (|str| == 0 && r == |data|)))
    ensures forall j :: fromIndex <= j && (r == -1 || j < r) ==> !MatchesAt(data, str, j)
    ensures |str| == 0 ==> r == EmptyMatchFrom(data, fromIndex)
  {
    if fromIndex >= |data| then (if |str| == 0 then |data| else -1)
    else SearchFrom(data, str, if fromIndex < 0 then 0 else fromIndex)
  }

  /** `position(searchstr, start)` as the buffer computes it: the zero-based index of the
      first occurrence at or after position `start`, or -1. */
  function NClobPositionAsWritten(c: MaterializedNClob, str: string, start: int): (r: Result<int, LobError>)
    ensures c.data.None? ==> r == Failure(NullPointer)
    ensures r.Success? ==> r.value == -1 || (MatchesAt(c.data.value, str, r.value)
                                             && (start - 1 <= r.value || (|str| == 0 && r.value == |c.data.value|)))
    ensures r.Success? ==> forall j :: start - 1 <= j && (r.value == -1 || j < r.value) ==> !MatchesAt(c.data.value, str, j)
    ensures c.data.Some? ==> r.Success?
    ensures c.data.Some? && |str| == 0 ==> r.value == EmptyMatchFrom(c.data.value, start - 1)
  {
    match c.data
    case None => Failure(NullPointer)
    case Some(data) => Success(IndexOfFrom(data, str, start - 1))
  }

  /** The occurrence of "a" at the very start of "abc" is reported as position 0, while the
      first position of a clob is 1. */
  lemma PositionIsOffByOne()
    ensures NClobPositionAsWritten(NewNClob("abc"), "a", 1) == Success(0)
  {
    assert "abc"[0..1] == "a";
  }

  /** `position(searchstr, start)` with one-based positions: the first position at or after
      `start` where the string occurs, or -1 when there is none. */
  function NClobPosition(c: MaterializedNClob, str: string, start: int): (r: Result<int, LobError>)
    ensures c.data.None? ==> r == Failure(NullPointer)
    ensures r.Success? ==> r.value == -1 || (r.value >= 1 && MatchesAt(c.data.value, str, r.value - 1)
                                             && (r.value >= start || (|str| == 0 && r.value == |c.data.value| + 1)))
    ensures r.Success? ==> forall j :: start - 1 <= j && (r.value == -1 || j < r.value - 1) ==> !MatchesAt(c.data.value, str, j)
    ensures c.data.Some? ==> r.Success?
    ensures c.data.Some? && |str| == 0 ==> r.value == EmptyMatchFrom(c.data.value, start - 1) + 1
  {
    match c.data
    case None => Failure(NullPointer)
    case Some(data) =>
      var index := IndexOfFrom(data, str, start - 1);
      Success(if index < 0 then -1 else index + 1)
  }

  /** The one-based position of that same occurrence is 1. */
  lemma PositionCorrected()
    ensures NClobPosition(NewNClob("abc"), "a", 1) == Success(1)
  {
    assert "abc"[0..1] == "a";
  }

  /** For every clob, search string and start, the buffer answers one less than the one-based
      position of the same occurrence whenever there is one; both answer -1 when there is none. */
  lemma PositionAsWrittenIsOneLess(c: MaterializedNClob, str: string, start: int)
    ensures NClobPositionAsWritten(c, str, start).Success? <==> NClobPosition(c, str, start).Success?
    ensures NClobPositionAsWritten(c, str, start).Success? ==>
              var asWritten := NClobPositionAsWritten(c, str, start).value;
              var corrected := NClobPosition(c, str, start).value;
              && (asWritten == -1 <==> corrected == -1)
              && (asWritten != -1 ==> asWritten == corrected - 1)
  {
  }

  // ---------------------------------------------------------------------------
  // Extraction and binding

  /** A LOB as the driver hands it out, with its content. */
  datatype DriverLob<T> = DriverLob(content: seq<T>)

  /** What extraction returns: the driver's LOB itself (possibly null) or an in-memory copy. */
  datatype ExtractedLob<T> = PassedThrough(lob: Option<DriverLob<T>>) | Materialized(content: seq<T>)

  /** A non-null LOB whose length reaches the prefetch threshold is copied into memory; any
      other is passed through as the driver returned it. */
  function ExtractLob<T>(rsLob: Option<DriverLob<T>>, maxLobPrefetchSize: int): (r: ExtractedLob<T>)
    ensures r.Materialized? <==> rsLob.Some? && |rsLob.value.content| >= maxLobPrefetchSize
    ensures r.Materialized? ==> r.content == rsLob.value.content
    ensures r.PassedThrough? ==> r.lob == rsLob
  {
    match rsLob
    case None => PassedThrough(None)
    case Some(lob) =>
      if |lob.content| < maxLobPrefetchSize then PassedThrough(rsLob) else Materialized(lob.content)
  }

  /** The materialized blob a large enough driver blob is read into holds the same bytes. */
  lemma MaterializedBlobCopiesContent(rsBlob: DriverLob<Byte>, maxLobPrefetchSize: int)
    requires |rsBlob.content| >= maxLobPrefetchSize
    ensures var e := ExtractLob(Some(rsBlob), maxLobPrefetchSize);
            e.Materialized? && BlobLength(NewBlob(e.content)) == Success(|rsBlob.content|)
            && BlobGetBytes(NewBlob(e.content), 1, |rsBlob.content|) == Success(rsBlob.content)
  {
    assert rsBlob.content[0..|rsBlob.content|] == rsBlob.content;
  }

  /** Which result-set getter a HANA clob column is read with. */
  datatype ClobGetter = GetNClob | GetClob

  function ClobGetterFor(useUnicodeStringTypes: bool): (r: ClobGetter)
    ensures r == GetNClob <==> useUnicodeStringTypes
  {
    if useUnicodeStringTypes then GetNClob else GetClob
  }

  /** The binder a HANA blob parameter is bound with. */
  datatype BlobBinding = PrimitiveArrayBinding | HanaStreamBinding(maxLobPrefetchSize: int) | DefaultBlobBinding

  /** A `byte[]` value takes the primitive-array shortcut; otherwise the stream binder when the
      options ask for stream binding, else the default blob binder. */
  function BlobBinderFor(valueIsByteArray: bool, useStreamForLobBinding: bool, maxLobPrefetchSize: int): (r: BlobBinding)
    ensures r == PrimitiveArrayBinding <==> valueIsByteArray
    ensures r.HanaStreamBinding? <==> !valueIsByteArray && useStreamForLobBinding
    ensures r.HanaStreamBinding? ==> r.maxLobPrefetchSize == maxLobPrefetchSize
  {
    if valueIsByteArray then PrimitiveArrayBinding
    else if useStreamForLobBinding then HanaStreamBinding(maxLobPrefetchSize)
    else DefaultBlobBinding
  }
}

=== FILE: hana_locking.dfy ===
/** The row-locking clauses of the SAP HANA dialect. HANA takes lock wait timeouts in
    whole seconds, so a timeout in milliseconds is floored to seconds. The text of the
    generic `for update` clause and of the skip-locked clause come from the generic
    dialect, which is not part of this model: they are parameters here. */
module HanaLocking {
  import opened Wrappers
  import opened Text

  datatype LockMode =
    | NoLock
    | Read
    | Optimistic
    | OptimisticForceIncrement
    | Upgrade
    | UpgradeNowait
    | UpgradeSkipLocked
    | Write
    | Force
    | PessimisticRead
    | PessimisticWrite
    | PessimisticForceIncrement

  /** `Duration.ofMillis(ms).getSeconds()`: the timeout floored to whole seconds. */
  function LockWaitTimeoutInSeconds(timeoutMillis: int): (s: int)
    ensures s * 1000 <= timeoutMillis < s * 1000 + 1000
  {
    timeoutMillis / 1000
  }

  /** ` wait <seconds>` for a non-negative number of seconds, the seconds written as Java
      writes a long: plain decimal digits without a leading zero. */
  function WaitSuffix(seconds: nat): (r: string)
    ensures |r| > 6 && r[..6] == " wait " && r[6..] == NatToDecimal(seconds)
    ensures IsDigitText(r[6..]) && DecimalValue(r[6..]) == seconds
  {
    DecimalRoundTrip(seconds);
    var r := " wait " + NatToDecimal(seconds);
    assert r[6..] == NatToDecimal(seconds);
    r
  }

  /** `<for update> of <aliases>` */
  function ForUpdateOf(forUpdate: string, aliases: string): string {
    forUpdate + " of " + aliases
  }

  /** `<for update> nowait`, the clause without aliases. */
  function ForUpdateNowait(forUpdate: string): string {
    forUpdate + " nowait"
  }

  /** `<for update> of <aliases> nowait` */
  function ForUpdateNowaitOf(forUpdate: string, aliases: string): string {
    ForUpdateOf(forUpdate, aliases) + " nowait"
  }

  /** `r` is `clause` followed by what a timeout in milliseconds asks for: nothing for a
      negative one (block without limit), ` nowait` for zero, and for a positive one
      ` wait <s>` with `s` the timeout floored to seconds. */
  predicate WaitsByMilliseconds(clause: string, timeout: int, r: string) {
    && |clause| <= |r| && r[..|clause|] == clause
    && (timeout < 0 ==> r == clause)
    && (timeout == 0 ==> r[|clause|..] == " nowait")
    && (timeout > 0 ==>
          var w := r[|clause|..];
          && |w| > 6 && w[..6] == " wait " && w[6..] == NatToDecimal(LockWaitTimeoutInSeconds(timeout))
          && IsDigitText(w[6..])
          && DecimalValue(w[6..]) * 1000 <= timeout < DecimalValue(w[6..]) * 1000 + 1000)
  }

  /** `r` is `forUpdate` followed by what a timeout floored to seconds asks for: nothing for a
      negative one, ` nowait` under one second, and ` wait <s>` with `s >= 1` the floored
      seconds from one second on. */
  predicate WaitsBySeconds(forUpdate: string, timeout: int, r: string) {
    && |forUpdate| <= |r| && r[..|forUpdate|] == forUpdate
    && (timeout < 0 ==> r == forUpdate)
    && (0 <= timeout < 1000 ==> r == ForUpdateNowait(forUpdate))
    && (timeout >= 1000 ==>
          var w := r[|forUpdate|..];
          && |w| > 6 && w[..6] == " wait " && w[6..] == NatToDecimal(LockWaitTimeoutInSeconds(timeout))
          && IsDigitText(w[6..]) && DecimalValue(w[6..]) >= 1
          && DecimalValue(w[6..]) * 1000 <= timeout < DecimalValue(w[6..]) * 1000 + 1000)
  }

  /** The write lock on named aliases branches on the timeout in milliseconds. */
  function WriteLockStringOf(forUpdate: string, aliases: string, timeout: int): (r: string)
    ensures WaitsByMilliseconds(ForUpdateOf(forUpdate, aliases), timeout, r)
  {
    var clause := ForUpdateOf(forUpdate, aliases);
    if timeout > 0 then
      var r := clause + WaitSuffix(LockWaitTimeoutInSeconds(timeout));
      assert r[|clause|..] == WaitSuffix(LockWaitTimeoutInSeconds(timeout));
      r
    else if timeout == 0 then
      var r := ForUpdateNowaitOf(forUpdate, aliases);
      assert r[|clause|..] == " nowait";
      r
    else
      clause
  }

  /** The write lock without aliases branches on the timeout already floored to seconds. */
  function WriteLockString(forUpdate: string, timeout: int): (r: string)
    ensures WaitsBySeconds(forUpdate, timeout, r)
  {
    var seconds := LockWaitTimeoutInSeconds(timeout);
    if seconds > 0 then
      var r := forUpdate + WaitSuffix(seconds);
      assert r[|forUpdate|..] == WaitSuffix(seconds);
      r
    else if seconds == 0 then
      ForUpdateNowait(forUpdate)
    else
      forUpdate
  }

  /** HANA has no shared row lock, so a read lock without aliases is an exclusive
      `for update` clause waiting as the timeout floored to seconds asks. */
  function ReadLockString(forUpdate: string, timeout: int): (r: string)
    ensures WaitsBySeconds(forUpdate, timeout, r)
  {
    WriteLockString(forUpdate, timeout)
  }

  /** The read lock on named aliases is the exclusive clause on them, waiting as the timeout
      in milliseconds asks. */
  function ReadLockStringOf(forUpdate: string, aliases: string, timeout: int): (r: string)
    ensures WaitsByMilliseconds(ForUpdateOf(forUpdate, aliases), timeout, r)
  {
    WriteLockStringOf(forUpdate, aliases, timeout)
  }

  /** A timeout of 1 to 999 ms waits zero seconds when aliases are named, but does not wait at
      all without aliases. */
  lemma SubSecondTimeouts(forUpdate: string, aliases: string, timeout: int)
    requires 0 < timeout < 1000
    ensures WriteLockStringOf(forUpdate, aliases, timeout) == ForUpdateOf(forUpdate, aliases) + " wait 0"
    ensures WriteLockString(forUpdate, timeout) == ForUpdateNowait(forUpdate)
  {
    assert NatToDecimal(0) == "0";
  }

  /** The lock clause for named aliases and a lock mode. */
  function ForUpdateStringFor(forUpdate: string, skipLocked: string, aliases: string, lockMode: LockMode, timeout: int)
    : (r: string)
    ensures lockMode == Upgrade ==> r == ForUpdateOf(forUpdate, aliases)
    ensures lockMode in {PessimisticRead, PessimisticWrite} ==> WaitsByMilliseconds(ForUpdateOf(forUpdate, aliases), timeout, r)
    ensures lockMode in {UpgradeNowait, Force, PessimisticForceIncrement} ==> r == ForUpdateNowaitOf(forUpdate, aliases)
    ensures lockMode == UpgradeSkipLocked ==> r == skipLocked
    ensures lockMode in {NoLock, Read, Optimistic, OptimisticForceIncrement, Write} ==> r == ""
  {
    match lockMode
    case Upgrade => ForUpdateOf(forUpdate, aliases)
    case PessimisticRead => ReadLockStringOf(forUpdate, aliases, timeout)
    case PessimisticWrite => WriteLockStringOf(forUpdate, aliases, timeout)
    case UpgradeNowait => ForUpdateNowaitOf(forUpdate, aliases)
    case Force => ForUpdateNowaitOf(forUpdate, aliases)
    case PessimisticForceIncrement => ForUpdateNowaitOf(forUpdate, aliases)
    case UpgradeSkipLocked => skipLocked
    case _ => ""
  }

  /** With no aliases the generic dialect's clause for the lock options is used; otherwise the
      lock mode decides. */
  function ForUpdateStringWithOptions(forUpdate: string, skipLocked: string, withoutAliases: string,
                                      aliases: Option<string>, lockMode: LockMode, timeout: int): (r: string)
    ensures aliases.None? || aliases.value == "" ==> r == withoutAliases
    ensures aliases.Some? && aliases.value != "" ==> r == ForUpdateStringFor(forUpdate, skipLocked, aliases.value, lockMode, timeout)
  {
    match aliases
    case None => withoutAliases
    case Some(a) => if a == "" then withoutAliases else ForUpdateStringFor(forUpdate, skipLocked, a, lockMode, timeout)
  }

  /** Every clause the lock-mode dispatch produces, apart from the generic skip-locked one,
      locks the named aliases: it is empty exactly for the modes that take no row lock, and
      otherwise starts with `<for update> of <aliases>`. */
  lemma DispatchLocksNamedAliases(forUpdate: string, skipLocked: string, aliases: string, lockMode: LockMode, timeout: int)
    requires lockMode != UpgradeSkipLocked
    ensures var r := ForUpdateStringFor(forUpdate, skipLocked, aliases, lockMode, timeout);
            var clause := ForUpdateOf(forUpdate, aliases);
            && (r == "" <==> lockMode in {NoLock, Read, Optimistic, OptimisticForceIncrement, Write})
            && (r != "" ==> |clause| <= |r| && r[..|clause|] == clause)
  {
    var r := ForUpdateStringFor(forUpdate, skipLocked, aliases, lockMode, timeout);
    var clause := ForUpdateOf(forUpdate, aliases);
    assert |clause| > 0 by { assert clause[|forUpdate|] == ' '; }
    if lockMode in {UpgradeNowait, Force, PessimisticForceIncrement} {
      assert r[..|clause|] == clause;
    }
  }
}

=== FILE: native_query.dfy ===
/** The decisions a native query takes around the SQL rewrite: whether its plan may be
    cached, which cache keys it produces, how a plan is obtained, whether the session is
    flushed first, whether it is known to be a select, whether a typed result is
    compatible with its mapping, and how a join path is split. */
module NativeQuery {
  import opened Wrappers
  import opened Text
  import opened ParameterExpansion

  /** Errors a native query raises while it is being set up. */
  datatype QueryError =
    | NotAPropertyPath(path: string)
    | NotCompatible
    | IncompatibleResultType(requested: string, actual: string)
    | MoreThanOneReturn

  /** A native query, reduced to what plan resolution looks at. Mappings and transformers
      are compared by identity, which is modelled by a number. */
  datatype Query = Query(
    sqlString: string,
    occurrences: seq<Occurrence>,
    parameterBindings: seq<Binding>,
    resultSetMapping: nat,
    synchronizedQuerySpaces: set<string>,
    querySpaces: set<string>,
    tupleTransformer: Option<nat>,
    resultListTransformer: Option<nat>)

  /** The recognizer's output is well formed and each occurrence carries the binding of one
      of the query's parameters. */
  predicate ValidQuery(q: Query) {
    && WellFormed(q.sqlString, q.occurrences)
    && forall i :: 0 <= i < |q.occurrences| ==> q.occurrences[i].binding in q.parameterBindings
  }

  // ---------------------------------------------------------------------------
  // Plan caching

  /** Whether some parameter is bound to a collection of values. */
  function HasAnyMultiValuedBindings(bindings: seq<Binding>): (r: bool)
    ensures r <==> exists i :: 0 <= i < |bindings| && bindings[i].Multi?
  {
    if |bindings| == 0 then false
    else bindings[0].Multi? || HasAnyMultiValuedBindings(bindings[1..])
  }

  /** A plan may be cached only when no parameter list is bound, since a bound list changes
      the SQL text from one execution to the next. */
  predicate IsCacheable(q: Query) {
    !HasAnyMultiValuedBindings(q.parameterBindings)
  }

  datatype SelectInterpretationsKey = SelectInterpretationsKey(
    queryString: string,
    resultSetMapping: nat,
    synchronizedQuerySpaces: set<string>,
    tupleTransformer: Option<nat>,
    resultListTransformer: Option<nat>)

  datatype NonSelectInterpretationsKey = NonSelectInterpretationsKey(
    queryString: string,
    synchronizedQuerySpaces: set<string>)

  /** The select cache key: present exactly for a cacheable query, and built from its SQL
      text, mapping, synchronized spaces and both transformers. */
  function GenerateSelectInterpretationsKey(q: Query): (r: Option<SelectInterpretationsKey>)
    ensures r.None? <==> exists i :: 0 <= i < |q.parameterBindings| && q.parameterBindings[i].Multi?
    ensures r.Some? ==> && r.value.queryString == q.sqlString
                        && r.value.resultSetMapping == q.resultSetMapping
                        && r.value.synchronizedQuerySpaces == q.synchronizedQuerySpaces
                        && r.value.tupleTransformer == q.tupleTransformer
                        && r.value.resultListTransformer == q.resultListTransformer
  {
    if !IsCacheable(q) then None
    else Some(SelectInterpretationsKey(q.sqlString, q.resultSetMapping, q.synchronizedQuerySpaces,
                                       q.tupleTransformer, q.resultListTransformer))
  }

  /** The non-select cache key: present exactly for a cacheable query, built from its SQL
      text and synchronized spaces. */
  function GenerateNonSelectInterpretationsKey(q: Query): (r: Option<NonSelectInterpretationsKey>)
    ensures r.None? <==> exists i :: 0 <= i < |q.parameterBindings| && q.parameterBindings[i].Multi?
    ensures r.Some? ==> r.value.queryString == q.sqlString
                        && r.value.synchronizedQuerySpaces == q.synchronizedQuerySpaces
  {
    if !IsCacheable(q) then None
    else Some(NonSelectInterpretationsKey(q.sqlString, q.synchronizedQuerySpaces))
  }

  /** Two cacheable queries that differ only in their synchronized spaces never share a key. */
  lemma KeysSeparateSynchronizedSpaces(q1: Query, q2: Query)
    requires IsCacheable(q1) && IsCacheable(q2)
    requires q1.synchronizedQuerySpaces != q2.synchronizedQuerySpaces
    ensures GenerateSelectInterpretationsKey(q1) != GenerateSelectInterpretationsKey(q2)
    ensures GenerateNonSelectInterpretationsKey(q1) != GenerateNonSelectInterpretationsKey(q2)
  {
  }

  /** The SQL a plan is built from: the text after parameter-list expansion. */
  function PlanSql(q: Query, paddingEnabled: bool, inExprLimit: int): string
    requires ValidQuery(q)
  {
    Expanded(q.sqlString, q.occurrences, paddingEnabled, inExprLimit)
  }

  /** A cacheable query is never rewritten, so the SQL under a cached plan is the query's own. */
  lemma CacheablePlanKeepsSql(q: Query, paddingEnabled: bool, inExprLimit: int)
    requires ValidQuery(q) && IsCacheable(q)
    ensures PlanSql(q, paddingEnabled, inExprLimit) == q.sqlString
  {
    forall i | 0 <= i < |q.occurrences|
      ensures RewriteOf(q.sqlString, q.occurrences[i], paddingEnabled, inExprLimit).None?
    {
      var b := q.occurrences[i].binding;
      var k :| 0 <= k < |q.parameterBindings| && q.parameterBindings[k] == b;
    }
    NoRewriteNoChange(q.sqlString, q.occurrences, paddingEnabled, inExprLimit);
  }

  datatype SelectPlan = SelectPlan(sql: string, occurrences: seq<Occurrence>, resultSetMapping: nat, affectedTables: set<string>)

  /** How a select plan is obtained: through the interpretation cache under a key (the plan
      given is the one built when the key is missing), or built directly. */
  datatype SelectPlanRoute =
    | ThroughCache(key: SelectInterpretationsKey, onMiss: SelectPlan)
    | BuiltDirectly(plan: SelectPlan)

  /** The plan built for a query: the SQL with every parameter list expanded (the query's own
      text when it is cacheable), with the occurrences, the mapping and the query spaces. */
  function CreateQueryPlan(q: Query, paddingEnabled: bool, inExprLimit: int): (r: SelectPlan)
    requires ValidQuery(q)
    ensures r.sql == Expanded(q.sqlString, q.occurrences, paddingEnabled, inExprLimit)
    ensures IsCacheable(q) ==> r.sql == q.sqlString
    ensures r.occurrences == q.occurrences && r.resultSetMapping == q.resultSetMapping && r.affectedTables == q.querySpaces
  {
    assert IsCacheable(q) ==> PlanSql(q, paddingEnabled, inExprLimit) == q.sqlString by {
      if IsCacheable(q) {
        CacheablePlanKeepsSql(q, paddingEnabled, inExprLimit);
      }
    }
    SelectPlan(PlanSql(q, paddingEnabled, inExprLimit), q.occurrences, q.resultSetMapping, q.querySpaces)
  }

  /** A select plan goes through the cache exactly when the query is cacheable; either way the
      plan carries the expanded SQL, the occurrences, the mapping and the query spaces. */
  function ResolveSelectQueryPlan(q: Query, paddingEnabled: bool, inExprLimit: int): (r: SelectPlanRoute)
    requires ValidQuery(q)
    ensures r.ThroughCache? <==> IsCacheable(q)
    ensures r.ThroughCache? ==> Some(r.key) == GenerateSelectInterpretationsKey(q) && r.onMiss.sql == q.sqlString
    ensures r.BuiltDirectly? ==> r.plan.sql == Expanded(q.sqlString, q.occurrences, paddingEnabled, inExprLimit)
    ensures var plan := if r.ThroughCache? then r.onMiss else r.plan;
            && plan.occurrences == q.occurrences
            && plan.resultSetMapping == q.resultSetMapping
            && plan.affectedTables == q.querySpaces
  {
    match GenerateSelectInterpretationsKey(q)
    case Some(key) =>
      CacheablePlanKeepsSql(q, paddingEnabled, inExprLimit);
      ThroughCache(key, CreateQueryPlan(q, paddingEnabled, inExprLimit))
    case None => BuiltDirectly(CreateQueryPlan(q, paddingEnabled, inExprLimit))
  }

  datatype NonSelectPlan = NonSelectPlan(sql: string, affectedTables: set<string>, occurrences: seq<Occurrence>)

  type NonSelectCache = map<NonSelectInterpretationsKey, NonSelectPlan>

  /** Looks a non-select plan up under the query's key, builds it from the expanded SQL when
      there is none, and stores it under the key when there is a key. */
  function ResolveNonSelectQueryPlan(q: Query, cache: NonSelectCache, paddingEnabled: bool, inExprLimit: int)
    : (r: (NonSelectPlan, NonSelectCache))
    requires ValidQuery(q)
    ensures !IsCacheable(q) ==> r.1 == cache
    ensures !IsCacheable(q) ==> r.0 == NonSelectPlan(Expanded(q.sqlString, q.occurrences, paddingEnabled, inExprLimit), q.querySpaces, q.occurrences)
    ensures IsCacheable(q) ==> var key := NonSelectInterpretationsKey(q.sqlString, q.synchronizedQuerySpaces);
            && key in r.1 && r.1[key] == r.0
            && (key in cache ==> r.0 == cache[key] && r.1 == cache)
            && (key !in cache ==> r.0 == NonSelectPlan(q.sqlString, q.querySpaces, q.occurrences) && r.1 == cache[key := r.0])
  {
    var cacheKey := GenerateNonSelectInterpretationsKey(q);
    if cacheKey.Some? && cacheKey.value in cache then
      (cache[cacheKey.value], cache)
    else
      var plan := NonSelectPlan(PlanSql(q, paddingEnabled, inExprLimit), q.querySpaces, q.occurrences);
      if cacheKey.Some? then
        CacheablePlanKeepsSql(q, paddingEnabled, inExprLimit);
        (plan, cache[cacheKey.value := plan])
      else
        (plan, cache)
  }

  /** Resolving the same non-select query twice gives the same plan and leaves the cache as the
      first resolution left it. */
  lemma NonSelectResolutionIsStable(q: Query, cache: NonSelectCache, paddingEnabled: bool, inExprLimit: int)
    requires ValidQuery(q)
    ensures var (plan1, cache1) := ResolveNonSelectQueryPlan(q, cache, paddingEnabled, inExprLimit);
            var (plan2, cache2) := ResolveNonSelectQueryPlan(q, cache1, paddingEnabled, inExprLimit);
            plan2 == plan1 && cache2 == cache1
  {
  }

  // ---------------------------------------------------------------------------
  // Flushing before execution

  datatype FlushMode = Manual | Commit | Auto | Always

  /** The session is flushed before the query only inside a transaction, and then when the
      effective flush mode (the query's own, else the session's) is ALWAYS, or AUTO under
      JPA bootstrapping. */
  function ShouldFlush(transactionInProgress: bool, queryFlushMode: Option<FlushMode>,
                       sessionFlushMode: FlushMode, isJpaBootstrap: bool): (r: bool)
    ensures !transactionInProgress ==> !r
    ensures var effective := if queryFlushMode.Some? then queryFlushMode.value else sessionFlushMode;
            && (transactionInProgress && effective == Always ==> r)
            && (effective == Auto ==> r == (transactionInProgress && isJpaBootstrap))
            && (effective == Manual || effective == Commit ==> !r)
  {
    if transactionInProgress then
      var effective := match queryFlushMode case Some(m) => m case None => sessionFlushMode;
      if effective == Always then true
      else if effective == Auto then isJpaBootstrap
      else false
    else
      false
  }

  /** Before execution a full flush happens only when the query declares no synchronized
      spaces (otherwise a partial flush over those spaces is left to the caller). */
  function FlushesBeforeExecution(q: Query, transactionInProgress: bool, queryFlushMode: Option<FlushMode>,
                                  sessionFlushMode: FlushMode, isJpaBootstrap: bool): (r: bool)
    ensures r ==> q.synchronizedQuerySpaces == {}
    ensures r ==> ShouldFlush(transactionInProgress, queryFlushMode, sessionFlushMode, isJpaBootstrap)
    ensures q.synchronizedQuerySpaces == {} && ShouldFlush(transactionInProgress, queryFlushMode, sessionFlushMode, isJpaBootstrap) ==> r
  {
    if q.synchronizedQuerySpaces != {} then false
    else ShouldFlush(transactionInProgress, queryFlushMode, sessionFlushMode, isJpaBootstrap)
  }

  /** A flush mode set on the query decides alone: the session's mode does not matter, and
      the outcome is what the session would give with that mode. */
  lemma QueryFlushModeWins(transactionInProgress: bool, queryMode: FlushMode,
                           sessionMode1: FlushMode, sessionMode2: FlushMode, isJpaBootstrap: bool)
    ensures ShouldFlush(transactionInProgress, Some(queryMode), sessionMode1, isJpaBootstrap)
            == ShouldFlush(transactionInProgress, Some(queryMode), sessionMode2, isJpaBootstrap)
    ensures ShouldFlush(transactionInProgress, Some(queryMode), sessionMode1, isJpaBootstrap)
            == ShouldFlush(transactionInProgress, None, queryMode, isJpaBootstrap)
  {
  }

  // ---------------------------------------------------------------------------
  // Select detection and typed results

  /** What is known about the statement kind; the query itself never answers NonSelect. */
  datatype StatementKind = Select | NonSelect | Undetermined

  function IsSelectQuery(resultMappingSuppliedToCtor: bool, numberOfResultBuilders: nat, isReadOnly: bool): (r: StatementKind)
    ensures r != NonSelect
    ensures r == Select <==> resultMappingSuppliedToCtor || numberOfResultBuilders > 0 || isReadOnly
  {
    if resultMappingSuppliedToCtor || numberOfResultBuilders > 0 || isReadOnly then Select else Undetermined
  }

  datatype JavaType = TupleType | ClassType(name: string)

  /** What the constructor does with a requested result type. */
  datatype TypedResult = NoTypeRequested | TupleTransformerInstalled | TypeChecked

  /** The constructor's check of a requested result type against the mapping: a tuple gets the
      tuple transformer; a class needs exactly one result builder whose type it is assignable from. */
  function CheckResultType(requested: Option<JavaType>, builderTypes: seq<string>,
                           isAssignableFrom: (string, string) -> bool): (r: Result<TypedResult, QueryError>)
    ensures requested.None? ==> r == Success(NoTypeRequested)
    ensures requested == Some(TupleType) ==> r == Success(TupleTransformerInstalled)
    ensures requested.Some? && requested.value.ClassType? ==>
              && (r.Success? <==> |builderTypes| == 1 && isAssignableFrom(requested.value.name, builderTypes[0]))
              && (|builderTypes| == 0 ==> r == Failure(NotCompatible))
              && (|builderTypes| > 1 ==> r == Failure(MoreThanOneReturn))
              && (|builderTypes| == 1 && r.Failure? ==>
                    r.error == IncompatibleResultType(requested.value.name, builderTypes[0]))
  {
    match requested
    case None => Success(NoTypeRequested)
    case Some(TupleType) => Success(TupleTransformerInstalled)
    case Some(ClassType(name)) =>
      if |builderTypes| == 0 then Failure(NotCompatible)
      else if |builderTypes| == 1 then
        if isAssignableFrom(name, builderTypes[0]) then Success(TypeChecked)
        else Failure(IncompatibleResultType(name, builderTypes[0]))
      else Failure(MoreThanOneReturn)
  }

  /** A class result type only passes the check when a result builder exists, and a query
      with a result builder is known to be a select. */
  lemma TypedResultIsSelect(requested: Option<JavaType>, builderTypes: seq<string>,
                            isAssignableFrom: (string, string) -> bool,
                            resultMappingSuppliedToCtor: bool, isReadOnly: bool)
    requires requested.Some? && requested.value.ClassType?
    requires CheckResultType(requested, builderTypes, isAssignableFrom).Success?
    ensures IsSelectQuery(resultMappingSuppliedToCtor, |builderTypes|, isReadOnly) == Select
  {
  }

  // ---------------------------------------------------------------------------
  // Fetch joins

  /** A fetch join declared by `addJoin`: the joined alias, its owner alias and the property. */
  datatype FetchJoin = FetchJoin(tableAlias: string, ownerTableAlias: string, joinedPropertyName: string)

  /** `addJoin(alias, path)`: the path is cut at its first dot into owner alias and property
      name (the property keeps any later dots); a path without a dot is rejected. */
  function CreateFetchJoin(tableAlias: string, path: string): (r: Result<FetchJoin, QueryError>)
    ensures r.Failure? <==> '.' !in path
    ensures r.Failure? ==> r.error == NotAPropertyPath(path)
    ensures r.Success? ==> && r.value.tableAlias == tableAlias
                           && r.value.ownerTableAlias + "." + r.value.joinedPropertyName == path
                           && '.' !in r.value.ownerTableAlias
  {
    var loc := IndexOf(path, '.');
    if loc < 0 then Failure(NotAPropertyPath(path))
    else
      assert path == path[..loc] + "." + path[loc + 1..];
      Success(FetchJoin(tableAlias, path[..loc], path[loc + 1..]))
  }

  /** Joining an owner alias without dots and any property back into a path and splitting it
      again gives the same two parts. */
  lemma FetchJoinRoundTrip(tableAlias: string, owner: string, property: string)
    requires '.' !in owner
    ensures CreateFetchJoin(tableAlias, owner + "." + property) == Success(FetchJoin(tableAlias, owner, property))
  {
    var path := owner + "." + property;
    assert path[|owner|] == '.';
    assert path[..|owner|] == owner;
    assert path[|owner| + 1..] == property;
  }
}

=== FILE: parameter_expansion.dfy ===
/** The rewrite a native SQL query goes through before execution: every placeholder
    bound to a collection of values is replaced by one placeholder per value (or by
    `null` for an empty collection), left to right, with the later positions shifted
    by what the earlier replacements added. */
module ParameterExpansion {
  import opened Wrappers
  import opened Text

  /** How a query parameter is bound: to a single value, or to a collection of `count` values. */
  datatype Binding = Single | Multi(count: nat)

  /** One placeholder of the SQL text. A negative source position marks an occurrence
      that cannot be substituted in place. */
  datatype Occurrence = Occurrence(sourcePosition: int, binding: Binding)

  // ---------------------------------------------------------------------------
  // Padding of the bind-value count

  predicate IsPowerOfTwo(n: int)
    decreases if n < 0 then 0 else n
  {
    n == 1 || (n > 1 && n % 2 == 0 && IsPowerOfTwo(n / 2))
  }

  /** The smallest power of two that is at least `p` and at least `n`, for a power of two `p`. */
  function PowerOfTwoAtLeast(n: int, p: nat): (r: nat)
    requires IsPowerOfTwo(p)
    ensures IsPowerOfTwo(r) && r >= n && r >= p
    ensures r == p || r / 2 < n
    decreases n - p
  {
    if p >= n then p else PowerOfTwoAtLeast(n, 2 * p)
  }

  /** The smallest power of two that is at least `n`. */
  function CeilingPowerOfTwo(n: int): (r: nat)
    ensures IsPowerOfTwo(r) && r >= n
    ensures r == 1 || r / 2 < n
  {
    PowerOfTwoAtLeast(n, 1)
  }

  /** A power of two below another one is at most half of it. */
  lemma {:induction false} SmallerPowerOfTwo(q: int, r: int)
    requires IsPowerOfTwo(q) && IsPowerOfTwo(r) && q < r
    ensures q <= r / 2
    decreases r
  {
    if q > 1 {
      SmallerPowerOfTwo(q / 2, r / 2);
    }
  }

  /** No power of two at least `n` is smaller than `CeilingPowerOfTwo(n)`. */
  lemma CeilingPowerOfTwoIsLeast(n: int, q: int)
    requires IsPowerOfTwo(q) && q >= n
    ensures CeilingPowerOfTwo(n) <= q
  {
    var r := CeilingPowerOfTwo(n);
    if q < r {
      SmallerPowerOfTwo(q, r);
    }
  }

  /** The number of placeholders a collection of `count` values expands to: the count
      itself, or, when padding is on and the count exceeds two, the next power of two,
      lowered to a positive dialect limit but never below the count. */
  function DetermineBindValueMaxCount(paddingEnabled: bool, inExprLimit: int, count: nat): (r: nat)
    ensures r >= count
    ensures !paddingEnabled || count <= 2 ==> r == count
    ensures paddingEnabled && count > 2 && (inExprLimit <= 0 || CeilingPowerOfTwo(count) <= inExprLimit)
            ==> r == CeilingPowerOfTwo(count)
    ensures paddingEnabled && count > 2 && inExprLimit > 0 && CeilingPowerOfTwo(count) > inExprLimit
            ==> r == if inExprLimit > count then inExprLimit else count
  {
    if paddingEnabled && count > 2 then
      var padded := CeilingPowerOfTwo(count);
      var capped := if inExprLimit > 0 && padded > inExprLimit then inExprLimit else padded;
      if count < capped then capped else count
    else
      count
  }

  /** Padding less than doubles a non-empty count, and under a positive dialect limit it
      reaches beyond the limit only when the count itself does. */
  lemma PaddingBounds(paddingEnabled: bool, inExprLimit: int, count: nat)
    ensures var r := DetermineBindValueMaxCount(paddingEnabled, inExprLimit, count);
            && (count > 0 ==> r < 2 * count)
            && (inExprLimit > 0 ==> r <= if count > inExprLimit then count else inExprLimit)
  {
  }

  // ---------------------------------------------------------------------------
  // Whether a placeholder already sits between parentheses

  /** The index of the nearest non-whitespace character before index `p`, if any. */
  function NonWhitespaceBefore(sql: string, p: nat): (r: Option<nat>)
    requires p <= |sql|
    ensures r.None? ==> forall k :: 0 <= k < p ==> IsJavaWhitespace(sql[k])
    ensures r.Some? ==> r.value < p && !IsJavaWhitespace(sql[r.value])
                        && forall k :: r.value < k < p ==> IsJavaWhitespace(sql[k])
    decreases p
  {
    if p == 0 then None
    else if !IsJavaWhitespace(sql[p - 1]) then Some(p - 1)
    else NonWhitespaceBefore(sql, p - 1)
  }

  /** The index of the nearest non-whitespace character at or after index `p`, if any. */
  function NonWhitespaceFrom(sql: string, p: nat): (r: Option<nat>)
    requires p <= |sql|
    ensures r.None? ==> forall k :: p <= k < |sql| ==> IsJavaWhitespace(sql[k])
    ensures r.Some? ==> p <= r.value < |sql| && !IsJavaWhitespace(sql[r.value])
                        && forall k :: p <= k < r.value ==> IsJavaWhitespace(sql[k])
    decreases |sql| - p
  {
    if p == |sql| then None
    else if !IsJavaWhitespace(sql[p]) then Some(p)
    else NonWhitespaceFrom(sql, p + 1)
  }

  /** Only whitespace, and then an opening parenthesis or the start of the text, lies before `p`. */
  ghost predicate OpensBefore(sql: string, p: nat)
    requires p <= |sql|
  {
    || (forall k :: 0 <= k < p ==> IsJavaWhitespace(sql[k]))
    || (exists i :: 0 <= i < p && sql[i] == '(' && forall k :: i < k < p ==> IsJavaWhitespace(sql[k]))
  }

  /** Only whitespace, and then a closing parenthesis or the end of the text, lies after `p`. */
  ghost predicate ClosesAfter(sql: string, p: nat)
    requires p < |sql|
  {
    || (forall k :: p < k < |sql| ==> IsJavaWhitespace(sql[k]))
    || (exists i :: p < i < |sql| && sql[i] == ')' && forall k :: p < k < i ==> IsJavaWhitespace(sql[k]))
  }

  /** The two scans of the placeholder's neighbourhood: it is enclosed when the nearest
      non-whitespace character on its left is `(` or there is none, and the one on its right
      is `)` or there is none. This is exactly the declarative condition: only whitespace,
      then `(` or the start of the text, on the left, and only whitespace, then `)` or the
      end, on the right. */
  predicate IsEnclosedInParens(sql: string, p: nat): (r: bool)
    requires p < |sql|
    ensures r <==> OpensBefore(sql, p) && ClosesAfter(sql, p)
  {
    && (match NonWhitespaceBefore(sql, p) case None => true case Some(i) => sql[i] == '(')
    && (match NonWhitespaceFrom(sql, p + 1) case None => true case Some(i) => sql[i] == ')')
  }

  // ---------------------------------------------------------------------------
  // The replacement text

  /** `?,?,...,?` with `n` placeholders. */
  function PlaceholderList(n: nat): (r: string)
    requires n >= 1
    ensures |r| == 2 * n - 1
    ensures forall i :: 0 <= i < |r| ==> r[i] == (if i % 2 == 0 then '?' else ',')
  {
    if n == 1 then "?" else PlaceholderList(n - 1) + ",?"
  }

  /** What replaces a placeholder expanded to `maxCount` values: one placeholder per value,
      wrapped in parentheses exactly when the source placeholder is not already enclosed; for
      an empty collection the literal `null`, parenthesised under the same rule. */
  function ExpansionText(maxCount: nat, enclosed: bool): string {
    if maxCount == 0 then
      if enclosed then "null" else "(null)"
    else
      var l := PlaceholderList(maxCount);
      if enclosed then l else "(" + l + ")"
  }

  /** The replacement holds exactly `maxCount` placeholders, separated by commas, and is
      parenthesised exactly when the placeholder is not enclosed. */
  lemma ExpansionShape(maxCount: nat, enclosed: bool)
    ensures var r := ExpansionText(maxCount, enclosed);
            && |r| > 0 && (r[0] == '(' <==> !enclosed)
            && (maxCount == 0 ==> r == (if enclosed then "null" else "(null)"))
            && (maxCount > 0 ==> CountChar(r, '?') == maxCount)
            && (maxCount > 0 && enclosed ==> |r| == 2 * maxCount - 1 && r[|r| - 1] == '?')
            && (maxCount > 0 && !enclosed ==> |r| == 2 * maxCount + 1 && r[|r| - 1] == ')')
  {
    if maxCount > 0 {
      var l := PlaceholderList(maxCount);
      PlaceholderListCount(maxCount);
      if !enclosed {
        CountCharAppend("(", l, '?');
        CountCharAppend("(" + l, ")", '?');
        assert CountChar("(", '?') == 0 by { assert "("[..0] == ""; }
        assert CountChar(")", '?') == 0 by { assert ")"[..0] == ""; }
      }
    }
  }

  function CountChar(s: string, c: char): nat {
    if |s| == 0 then 0 else CountChar(s[..|s| - 1], c) + (if s[|s| - 1] == c then 1 else 0)
  }

  lemma {:induction false} CountCharAppend(s: string, t: string, c: char)
    ensures CountChar(s + t, c) == CountChar(s, c) + CountChar(t, c)
    decreases |t|
  {
    if |t| == 0 {
      assert s + t == s;
    } else {
      assert (s + t)[..|s + t| - 1] == s + t[..|t| - 1];
      CountCharAppend(s, t[..|t| - 1], c);
    }
  }

  /** The list holds exactly `n` placeholders. */
  lemma {:induction false} PlaceholderListCount(n: nat)
    requires n >= 1
    ensures CountChar(PlaceholderList(n), '?') == n
  {
    if n > 1 {
      PlaceholderListCount(n - 1);
      CountCharAppend(PlaceholderList(n - 1), ",?", '?');
      assert CountChar(",?", '?') == 1 by {
        assert ",?"[..1] == ",";
        assert ","[..0] == "";
      }
    }
  }

  // ---------------------------------------------------------------------------
  // The whole rewrite, as a reference definition

  /** What the caller guarantees about the occurrence list: substitutable positions point at
      a `?` of the SQL text and strictly increase along the list. */
  predicate WellFormed(sql: string, occs: seq<Occurrence>) {
    && (forall i :: 0 <= i < |occs| ==> occs[i].sourcePosition < |sql|)
    && (forall i :: 0 <= i < |occs| && occs[i].sourcePosition >= 0 ==> sql[occs[i].sourcePosition] == '?')
    && (forall i, j :: 0 <= i < j < |occs| && occs[i].sourcePosition >= 0 && occs[j].sourcePosition >= 0
                       ==> occs[i].sourcePosition < occs[j].sourcePosition)
  }

  /** The text replacing the placeholder of `occ`, or None when `occ` leaves the SQL as it
      is: a single value, a placeholder that cannot be substituted, or a one-element
      collection whose placeholder is already parenthesised. A replacement holds as many
      placeholders as the padded count and starts with `(` exactly when the placeholder is
      not enclosed. */
  function RewriteOf(sql: string, occ: Occurrence, paddingEnabled: bool, inExprLimit: int): (r: Option<string>)
    requires occ.sourcePosition < |sql|
    ensures r.None? <==> || occ.binding.Single?
                         || occ.sourcePosition < 0
                         || (occ.binding.count == 1 && IsEnclosedInParens(sql, occ.sourcePosition))
  {
    match occ.binding
    case Single => None
    case Multi(count) =>
      if occ.sourcePosition < 0 then None
      else
        var enclosed := IsEnclosedInParens(sql, occ.sourcePosition);
        if count == 1 && enclosed then None
        else Some(ExpansionText(DetermineBindValueMaxCount(paddingEnabled, inExprLimit, count), enclosed))
  }

  /** A replacement holds as many placeholders as the padded count, at least the number of
      bound values, or is the literal `null`; it starts with `(` exactly when the
      placeholder is not already enclosed. */
  lemma RewriteShape(sql: string, occ: Occurrence, paddingEnabled: bool, inExprLimit: int)
    requires occ.sourcePosition < |sql|
    ensures var r := RewriteOf(sql, occ, paddingEnabled, inExprLimit);
            r.Some? ==> && occ.binding.Multi? && occ.sourcePosition >= 0
                        && var maxCount := DetermineBindValueMaxCount(paddingEnabled, inExprLimit, occ.binding.count);
                        && maxCount >= occ.binding.count
                        && (maxCount > 0 ==> CountChar(r.value, '?') == maxCount)
                        && (maxCount == 0 ==> r.value == "null" || r.value == "(null)")
                        && |r.value| > 0
                        && (r.value[0] == '(' <==> !IsEnclosedInParens(sql, occ.sourcePosition))
  {
    if occ.binding.Multi? && occ.sourcePosition >= 0 {
      var count := occ.binding.count;
      ExpansionShape(DetermineBindValueMaxCount(paddingEnabled, inExprLimit, count),
                     IsEnclosedInParens(sql, occ.sourcePosition));
    }
  }

  /** The replacement of every rewritten occurrence, keyed by its source position. */
  function Edits(sql: string, occs: seq<Occurrence>, paddingEnabled: bool, inExprLimit: int): map<int, string>
    requires forall i :: 0 <= i < |occs| ==> occs[i].sourcePosition < |sql|
    decreases |occs|
  {
    if occs == [] then map[]
    else
      var prev := Edits(sql, occs[..|occs| - 1], paddingEnabled, inExprLimit);
      var last := occs[|occs| - 1];
      match RewriteOf(sql, last, paddingEnabled, inExprLimit)
      case None => prev
      case Some(text) => prev[last.sourcePosition := text]
  }

  /** How much the rewrite lengthens the text: the sum of |replacement| - 1. */
  function Growth(sql: string, occs: seq<Occurrence>, paddingEnabled: bool, inExprLimit: int): int
    requires forall i :: 0 <= i < |occs| ==> occs[i].sourcePosition < |sql|
    decreases |occs|
  {
    if occs == [] then 0
    else
      var prev := Growth(sql, occs[..|occs| - 1], paddingEnabled, inExprLimit);
      match RewriteOf(sql, occs[|occs| - 1], paddingEnabled, inExprLimit)
      case None => prev
      case Some(text) => prev + |text| - 1
  }

  /** The first `k` characters of `sql`, each one replaced by its edit when it has one. */
  function RenderPrefix(sql: string, edits: map<int, string>, k: nat): string
    requires k <= |sql|
  {
    if k == 0 then []
    else RenderPrefix(sql, edits, k - 1) + (if k - 1 in edits then edits[k - 1] else [sql[k - 1]])
  }

  /** The reference result: the SQL text with each rewritten placeholder replaced and every
      other character kept, in order. */
  function Expanded(sql: string, occs: seq<Occurrence>, paddingEnabled: bool, inExprLimit: int): string
    requires forall i :: 0 <= i < |occs| ==> occs[i].sourcePosition < |sql|
  {
    RenderPrefix(sql, Edits(sql, occs, paddingEnabled, inExprLimit), |sql|)
  }

  // ---------------------------------------------------------------------------
  // Facts about the reference definition

  /** Every edit sits at the source position of one of the occurrences, and is non-negative. */
  lemma {:induction false} EditKeys(sql: string, occs: seq<Occurrence>, paddingEnabled: bool, inExprLimit: int, key: int)
    requires forall i :: 0 <= i < |occs| ==> occs[i].sourcePosition < |sql|
    ensures key in Edits(sql, occs, paddingEnabled, inExprLimit) ==>
              0 <= key && exists m :: 0 <= m < |occs| && occs[m].sourcePosition == key
    decreases |occs|
  {
    if key !in Edits(sql, occs, paddingEnabled, inExprLimit) {
      return;
    }
    var prefix := occs[..|occs| - 1];
    var last := occs[|occs| - 1];
    if key == last.sourcePosition && RewriteOf(sql, last, paddingEnabled, inExprLimit).Some? {
      assert occs[|occs| - 1].sourcePosition == key;
    } else {
      EditKeys(sql, prefix, paddingEnabled, inExprLimit, key);
      var m :| 0 <= m < |prefix| && prefix[m].sourcePosition == key;
      assert occs[m].sourcePosition == key;
    }
  }

  /** Without an edit, rendering gives back the text. */
  lemma {:induction false} RenderNoEdits(sql: string, k: nat)
    requires k <= |sql|
    ensures RenderPrefix(sql, map[], k) == sql[..k]
  {
    if k > 0 {
      RenderNoEdits(sql, k - 1);
      assert sql[..k] == sql[..k - 1] + [sql[k - 1]];
    }
  }

  /** Past the last edit, rendering copies the text. */
  lemma {:induction false} RenderBeyondEdits(sql: string, edits: map<int, string>, p: nat, n: nat)
    requires p <= n <= |sql|
    requires forall key :: key in edits ==> key < p
    ensures RenderPrefix(sql, edits, n) == RenderPrefix(sql, edits, p) + sql[p..n]
    decreases n
  {
    if n > p {
      RenderBeyondEdits(sql, edits, p, n - 1);
      assert sql[p..n] == sql[p..n - 1] + [sql[n - 1]];
    }
  }

  /** Two edit maps that agree below `k` render the first `k` characters alike. */
  lemma {:induction false} RenderAgrees(sql: string, e1: map<int, string>, e2: map<int, string>, k: nat)
    requires k <= |sql|
    requires forall key :: key < k ==> (key in e1 <==> key in e2)
    requires forall key :: key < k && key in e1 ==> e1[key] == e2[key]
    ensures RenderPrefix(sql, e1, k) == RenderPrefix(sql, e2, k)
  {
    if k > 0 {
      RenderAgrees(sql, e1, e2, k - 1);
    }
  }

  /** With an edit at `p` past all others, the rendering is that of the characters before
      `p`, the edit, and the rest of the text. */
  lemma AppendEdit(sql: string, edits: map<int, string>, p: nat, text: string)
    requires p < |sql|
    requires forall key :: key in edits ==> key < p
    ensures RenderPrefix(sql, edits[p := text], |sql|) == RenderPrefix(sql, edits, p) + text + sql[p + 1..]
  {
    var after := edits[p := text];
    assert forall key :: key in after ==> key < p + 1;
    RenderBeyondEdits(sql, after, p + 1, |sql|);
    RenderAgrees(sql, edits, after, p);
    assert RenderPrefix(sql, after, p + 1) == RenderPrefix(sql, after, p) + text;
  }

  /** Adding an edit past all others replaces exactly one character of the rendering. */
  lemma ReplaceOneCharacter(sql: string, edits: map<int, string>, p: nat, text: string)
    requires p < |sql|
    requires forall key :: key in edits ==> key < p
    ensures var before := RenderPrefix(sql, edits, |sql|);
            var start := |before| - |sql| + p;
            && 0 <= start < |before|
            && RenderPrefix(sql, edits[p := text], |sql|) == before[..start] + text + before[start + 1..]
  {
    var before := RenderPrefix(sql, edits, |sql|);
    RenderBeyondEdits(sql, edits, p, |sql|);
    var head := RenderPrefix(sql, edits, p);
    assert before == head + sql[p..];
    var start := |head|;
    assert before[..start] == head;
    assert before[start + 1..] == sql[p + 1..];
    var after := edits[p := text];
    RenderBeyondEdits(sql, after, p + 1, |sql|);
    AppendEdit(sql, edits, p, text);
  }

  /** Once every occurrence has been looked at, no edit is left to make past the last one. */
  lemma EditsBelow(sql: string, occs: seq<Occurrence>, paddingEnabled: bool, inExprLimit: int, i: nat)
    requires WellFormed(sql, occs)
    requires i < |occs| && occs[i].sourcePosition >= 0
    ensures forall key :: key in Edits(sql, occs[..i], paddingEnabled, inExprLimit) ==> key < occs[i].sourcePosition
  {
    var prefix := occs[..i];
    forall key | key in Edits(sql, prefix, paddingEnabled, inExprLimit)
      ensures key < occs[i].sourcePosition
    {
      EditKeys(sql, prefix, paddingEnabled, inExprLimit, key);
      var m :| 0 <= m < |prefix| && prefix[m].sourcePosition == key;
      assert occs[m].sourcePosition == key;
    }
  }

  /** When no occurrence is rewritten, the expanded text is the original one. */
  lemma {:induction false} NoRewriteNoChange(sql: string, occs: seq<Occurrence>, paddingEnabled: bool, inExprLimit: int)
    requires forall i :: 0 <= i < |occs| ==> occs[i].sourcePosition < |sql|
    requires forall i :: 0 <= i < |occs| ==> RewriteOf(sql, occs[i], paddingEnabled, inExprLimit).None?
    ensures Edits(sql, occs, paddingEnabled, inExprLimit) == map[]
    ensures Growth(sql, occs, paddingEnabled, inExprLimit) == 0
    ensures Expanded(sql, occs, paddingEnabled, inExprLimit) == sql
    decreases |occs|
  {
    if occs != [] {
      NoRewriteNoChange(sql, occs[..|occs| - 1], paddingEnabled, inExprLimit);
    }
    RenderNoEdits(sql, |sql|);
  }

  /** A lone rewritten placeholder at `p` is cut out and its replacement put in its place. */
  lemma SingleRewrite(sql: string, occ: Occurrence, paddingEnabled: bool, inExprLimit: int)
    requires occ.sourcePosition < |sql|
    requires RewriteOf(sql, occ, paddingEnabled, inExprLimit).Some?
    ensures var p := occ.sourcePosition;
            && 0 <= p
            && Expanded(sql, [occ], paddingEnabled, inExprLimit)
               == sql[..p] + RewriteOf(sql, occ, paddingEnabled, inExprLimit).value + sql[p + 1..]
  {
    var p := occ.sourcePosition;
    assert [occ][..0] == [];
    assert Edits(sql, [occ], paddingEnabled, inExprLimit)
           == map[][p := RewriteOf(sql, occ, paddingEnabled, inExprLimit).value];
    RenderNoEdits(sql, |sql|);
    assert sql[..|sql|] == sql;
    ReplaceOneCharacter(sql, map[], p, RewriteOf(sql, occ, paddingEnabled, inExprLimit).value);
  }

  // ---------------------------------------------------------------------------
  // The rewrite loop

  /** Looking at one more occurrence adds at most its own edit. */
  lemma StepEdits(sql: string, occs: seq<Occurrence>, paddingEnabled: bool, inExprLimit: int, i: nat)
    requires forall j :: 0 <= j < |occs| ==> occs[j].sourcePosition < |sql|
    requires i < |occs|
    ensures var prior := Edits(sql, occs[..i], paddingEnabled, inExprLimit);
            var next := Edits(sql, occs[..i + 1], paddingEnabled, inExprLimit);
            match RewriteOf(sql, occs[i], paddingEnabled, inExprLimit)
            case None => next == prior
            case Some(text) => next == prior[occs[i].sourcePosition := text]
    ensures var prior := Growth(sql, occs[..i], paddingEnabled, inExprLimit);
            var next := Growth(sql, occs[..i + 1], paddingEnabled, inExprLimit);
            match RewriteOf(sql, occs[i], paddingEnabled, inExprLimit)
            case None => next == prior
            case Some(text) => next == prior + |text| - 1
  {
    assert occs[..i + 1][..i] == occs[..i];
  }

  /** The replacement of occurrence `i`, spliced in at its drifted position, extends the
      rendering of the occurrences before it to that of the occurrences up to it. */
  lemma SpliceStep(sql: string, occs: seq<Occurrence>, paddingEnabled: bool, inExprLimit: int, i: nat, current: string)
    requires WellFormed(sql, occs)
    requires i < |occs|
    requires current == RenderPrefix(sql, Edits(sql, occs[..i], paddingEnabled, inExprLimit), |sql|)
    requires RewriteOf(sql, occs[i], paddingEnabled, inExprLimit).Some?
    ensures var start := occs[i].sourcePosition + |current| - |sql|;
            var text := RewriteOf(sql, occs[i], paddingEnabled, inExprLimit).value;
            && 0 <= start < |current|
            && current[..start] + text + current[start + 1..]
               == RenderPrefix(sql, Edits(sql, occs[..i + 1], paddingEnabled, inExprLimit), |sql|)
  {
    var prior := Edits(sql, occs[..i], paddingEnabled, inExprLimit);
    EditsBelow(sql, occs, paddingEnabled, inExprLimit, i);
    StepEdits(sql, occs, paddingEnabled, inExprLimit, i);
    ReplaceOneCharacter(sql, prior, occs[i].sourcePosition, RewriteOf(sql, occs[i], paddingEnabled, inExprLimit).value);
  }

  /** What the rewrite loop knows after looking at the first `i` occurrences: the buffer is
      still unused when nothing was rewritten yet, and otherwise holds the reference
      rendering of those occurrences, longer than the text by the running offset. */
  predicate LoopState(sql: string, occs: seq<Occurrence>, paddingEnabled: bool, inExprLimit: int,
                      i: nat, sb: Option<string>, offset: int)
    requires WellFormed(sql, occs)
  {
    && i <= |occs|
    && offset == Growth(sql, occs[..i], paddingEnabled, inExprLimit)
    && (sb.None? ==> Edits(sql, occs[..i], paddingEnabled, inExprLimit) == map[] && offset == 0)
    && (sb.Some? ==> && sb.value == RenderPrefix(sql, Edits(sql, occs[..i], paddingEnabled, inExprLimit), |sql|)
                     && |sb.value| == |sql| + offset)
  }

  /** An occurrence that is not rewritten leaves buffer and offset as they are. */
  lemma SkipKeepsLoopState(sql: string, occs: seq<Occurrence>, paddingEnabled: bool, inExprLimit: int,
                           i: nat, sb: Option<string>, offset: int)
    requires WellFormed(sql, occs)
    requires i < |occs| && RewriteOf(sql, occs[i], paddingEnabled, inExprLimit).None?
    requires LoopState(sql, occs, paddingEnabled, inExprLimit, i, sb, offset)
    ensures LoopState(sql, occs, paddingEnabled, inExprLimit, i + 1, sb, offset)
  {
    StepEdits(sql, occs, paddingEnabled, inExprLimit, i);
  }

  /** Before the first rewrite the buffer may be started from the text itself. */
  lemma StartBuffer(sql: string, occs: seq<Occurrence>, paddingEnabled: bool, inExprLimit: int, i: nat, offset: int)
    requires WellFormed(sql, occs)
    requires LoopState(sql, occs, paddingEnabled, inExprLimit, i, None, offset)
    ensures LoopState(sql, occs, paddingEnabled, inExprLimit, i, Some(sql), offset)
  {
    RenderNoEdits(sql, |sql|);
    assert sql[..|sql|] == sql;
  }

  /** Splicing the replacement of occurrence `i` in at its source position moved by the
      offset, and growing the offset by |replacement| - 1, keeps the loop state. */
  lemma SpliceKeepsLoopState(sql: string, occs: seq<Occurrence>, paddingEnabled: bool, inExprLimit: int,
                             i: nat, current: string, offset: int)
    requires WellFormed(sql, occs)
    requires i < |occs| && RewriteOf(sql, occs[i], paddingEnabled, inExprLimit).Some?
    requires LoopState(sql, occs, paddingEnabled, inExprLimit, i, Some(current), offset)
    ensures var text := RewriteOf(sql, occs[i], paddingEnabled, inExprLimit).value;
            var start := occs[i].sourcePosition + offset;
            && 0 <= start < |current|
            && LoopState(sql, occs, paddingEnabled, inExprLimit, i + 1,
                         Some(current[..start] + text + current[start + 1..]), offset + |text| - 1)
  {
    StepEdits(sql, occs, paddingEnabled, inExprLimit, i);
    SpliceStep(sql, occs, paddingEnabled, inExprLimit, i, current);
  }

  /** One round of the loop: occurrence `i` is skipped, or its replacement is spliced in at
      its source position moved by the offset, starting the buffer from the text if need be. */
  method ExpandOne(sql: string, occs: seq<Occurrence>, paddingEnabled: bool, inExprLimit: int,
                   i: nat, sb: Option<string>, offset: int)
    returns (sb': Option<string>, offset': int)
    requires WellFormed(sql, occs)
    requires i < |occs|
    requires LoopState(sql, occs, paddingEnabled, inExprLimit, i, sb, offset)
    ensures LoopState(sql, occs, paddingEnabled, inExprLimit, i + 1, sb', offset')
  {
    var rewrite := RewriteOf(sql, occs[i], paddingEnabled, inExprLimit);
    if rewrite.None? {
      SkipKeepsLoopState(sql, occs, paddingEnabled, inExprLimit, i, sb, offset);
      return sb, offset;
    }
    var current := sql;
    if sb.None? {
      StartBuffer(sql, occs, paddingEnabled, inExprLimit, i, offset);
    } else {
      current := sb.value;
    }
    var text := rewrite.value;
    SpliceKeepsLoopState(sql, occs, paddingEnabled, inExprLimit, i, current, offset);
    var start := occs[i].sourcePosition + offset;
    sb' := Some(current[..start] + text + current[start + 1..]);
    offset' := offset + |text| - 1;
  }

  /** The left-to-right rewrite with a running offset, as the query executes it. It returns
      the reference result and its length grows by exactly the sum of |replacement| - 1. */
  method ExpandParameterLists(sql: string, occs: seq<Occurrence>, paddingEnabled: bool, inExprLimit: int)
    returns (r: string)
    requires WellFormed(sql, occs)
    ensures r == Expanded(sql, occs, paddingEnabled, inExprLimit)
    ensures |r| == |sql| + Growth(sql, occs, paddingEnabled, inExprLimit)
  {
    RenderNoEdits(sql, |sql|);
    assert sql[..|sql|] == sql;
    if |occs| == 0 {
      return sql;
    }
    var sb: Option<string> := None;
    var offset := 0;
    var i := 0;
    assert occs[..0] == [];
    while i < |occs|
      invariant 0 <= i <= |occs|
      invariant LoopState(sql, occs, paddingEnabled, inExprLimit, i, sb, offset)
    {
      sb, offset := ExpandOne(sql, occs, paddingEnabled, inExprLimit, i, sb, offset);
      i := i + 1;
    }
    assert occs[..|occs|] == occs;
    r := if sb.None? then sql else sb.value;
  }
}

=== FILE: results_helper.dfy ===
/** Helpers of the result-set mapping: converting between one-based JDBC positions and
    zero-based value-array positions (on Java's 32-bit `int`), recognising the name of an
    entity's identifier, and choosing the builder for an implicit fetch. */
module ResultsHelper {
  import opened Wrappers

  // ---------------------------------------------------------------------------
  // Positions

  const IntMin := -0x8000_0000
  const IntMax := 0x7fff_ffff

  /** Java's `int`. */
  type Int32 = x: int | -0x8000_0000 <= x < 0x8000_0000

  /** Two's-complement wrap-around of an integer into the `int` range. */
  function Wrap32(x: int): (r: Int32)
    ensures (r - x) % 0x1_0000_0000 == 0
    ensures IntMin <= x <= IntMax ==> r == x
  {
    var m := x % 0x1_0000_0000;
    if m >= 0x8000_0000 then m - 0x1_0000_0000 else m
  }

  /** `jdbcPosition - 1` on `int`. */
  function JdbcPositionToValuesArrayPosition(jdbcPosition: Int32): (r: Int32)
    ensures jdbcPosition > IntMin ==> r == jdbcPosition - 1
    ensures jdbcPosition == IntMin ==> r == IntMax
  {
    Wrap32(jdbcPosition - 1)
  }

  /** `valuesArrayPosition + 1` on `int`. */
  function ValuesArrayPositionToJdbcPosition(valuesArrayPosition: Int32): (r: Int32)
    ensures valuesArrayPosition < IntMax ==> r == valuesArrayPosition + 1
    ensures valuesArrayPosition == IntMax ==> r == IntMin
  {
    Wrap32(valuesArrayPosition + 1)
  }

  /** The two conversions are inverse to each other on every `int`, overflow included. */
  lemma PositionRoundTrips(p: Int32)
    ensures ValuesArrayPositionToJdbcPosition(JdbcPositionToValuesArrayPosition(p)) == p
    ensures JdbcPositionToValuesArrayPosition(ValuesArrayPositionToJdbcPosition(p)) == p
  {
  }

  // ---------------------------------------------------------------------------
  // Identifier names

  /** The local name a reference to an entity's identifier may always use. */
  const RoleLocalName := "{id}"

  /** An entity's identifier mapping: a single attribute with a name, or any other kind
      (embedded or non-aggregated composite). */
  datatype IdentifierMapping = SingleAttribute(attributeName: string) | CompositeIdentifier

  /** The identifier's attribute name; None for an identifier that is not a single attribute. */
  function AttributeName(m: IdentifierMapping): (r: Option<string>)
    ensures r.Some? <==> m.SingleAttribute?
    ensures r.Some? ==> r.value == m.attributeName
  {
    match m
    case SingleAttribute(name) => Some(name)
    case CompositeIdentifier => None
  }

  /** The name `isIdentifier` compares against besides `{id}`: the attribute name of a
      single-attribute identifier, `{id}` again for any other. */
  function IdentifierAttributeName(m: IdentifierMapping): (r: string)
    ensures AttributeName(m).Some? ==> r == AttributeName(m).value
    ensures AttributeName(m).None? ==> r == RoleLocalName
  {
    if m.SingleAttribute? then m.attributeName else RoleLocalName
  }

  /** `name` refers to the identifier described by `m`. */
  predicate NamesIdentifier(m: IdentifierMapping, name: string) {
    name == RoleLocalName || name == IdentifierAttributeName(m)
  }

  /** Whether any of `names` refers to the identifier: `{id}` always does, and so does the
      attribute name of a single-attribute identifier. */
  method IsIdentifier(m: IdentifierMapping, names: seq<string>) returns (r: bool)
    ensures r <==> exists i :: 0 <= i < |names| && (names[i] == RoleLocalName
                                                    || (m.SingleAttribute? && names[i] == m.attributeName))
  {
    var identifierAttributeName := IdentifierAttributeName(m);
    var i := 0;
    while i < |names|
      invariant 0 <= i <= |names|
      invariant forall j :: 0 <= j < i ==> names[j] != RoleLocalName && !(m.SingleAttribute? && names[j] == m.attributeName)
    {
      var name := names[i];
      if name == RoleLocalName {
        return true;
      }
      if identifierAttributeName == name {
        return true;
      }
      i := i + 1;
    }
    return false;
  }

  /** Comparing against `IdentifierAttributeName` recognises exactly `{id}` and, for a
      single-attribute identifier, the attribute's name. */
  lemma NamesIdentifierIff(m: IdentifierMapping, name: string)
    ensures NamesIdentifier(m, name) <==> name == RoleLocalName || (m.SingleAttribute? && name == m.attributeName)
  {
  }

  // ---------------------------------------------------------------------------
  // Implicit fetches

  /** What the fetchable is, by the interfaces it implements; a fetchable may implement
      several, and the first that applies decides. */
  datatype Fetchable = Fetchable(id: nat, isBasicValued: bool, isEmbeddableValued: bool, isEntityValued: bool)

  datatype ImplicitFetchBuilder =
    | ImplicitFetchBuilderBasic(fetchPath: string, fetchable: Fetchable)
    | ImplicitFetchBuilderEmbeddable(fetchPath: string, fetchable: Fetchable)

  datatype FetchBuilderError = NotYetImplemented(message: string) | UnsupportedOperation

  /** The kinds of value a fetchable can be, in the order the builder choice tests them. */
  datatype ValueKind = BasicValued | EmbeddableValued | EntityValued

  /** The kinds that apply to `fetchable`, in test order. */
  function ApplicableKinds(fetchable: Fetchable): seq<ValueKind> {
    (if fetchable.isBasicValued then [BasicValued] else [])
    + (if fetchable.isEmbeddableValued then [EmbeddableValued] else [])
    + (if fetchable.isEntityValued then [EntityValued] else [])
  }

  /** The builder choice is decided by the first applicable kind alone: basic and embeddable
      get their builder on the same path and fetchable, entity-valued is not implemented yet,
      and with no applicable kind the operation is unsupported. */
  lemma FirstApplicableKindDecides(fetchPath: string, fetchable: Fetchable)
    ensures var kinds := ApplicableKinds(fetchable);
            var r := ImplicitFetchBuilderFor(fetchPath, fetchable);
            && (kinds == [] <==> r == Failure(UnsupportedOperation))
            && (kinds != [] && kinds[0] == BasicValued ==> r == Success(ImplicitFetchBuilderBasic(fetchPath, fetchable)))
            && (kinds != [] && kinds[0] == EmbeddableValued ==> r == Success(ImplicitFetchBuilderEmbeddable(fetchPath, fetchable)))
            && (kinds != [] && kinds[0] == EntityValued ==> r.Failure? && r.error.NotYetImplemented?)
  {
  }

  /** The builder for a fetch with no explicit mapping: basic-valued, then embeddable-valued;
      an entity-valued fetchable is not supported yet, and any other kind is rejected. */
  function ImplicitFetchBuilderFor(fetchPath: string, fetchable: Fetchable): (r: Result<ImplicitFetchBuilder, FetchBuilderError>)
    ensures r.Success? ==> r.value.fetchPath == fetchPath && r.value.fetchable == fetchable
    ensures r.Success? && r.value.ImplicitFetchBuilderBasic? <==> fetchable.isBasicValued
    ensures r.Success? && r.value.ImplicitFetchBuilderEmbeddable? <==> !fetchable.isBasicValued && fetchable.isEmbeddableValued
    ensures r.Failure? && r.error.NotYetImplemented? <==>
              !fetchable.isBasicValued && !fetchable.isEmbeddableValued && fetchable.isEntityValued
    ensures r == Failure(UnsupportedOperation) <==>
              !fetchable.isBasicValued && !fetchable.isEmbeddableValued && !fetchable.isEntityValued
  {
    if fetchable.isBasicValued then Success(ImplicitFetchBuilderBasic(fetchPath, fetchable))
    else if fetchable.isEmbeddableValued then Success(ImplicitFetchBuilderEmbeddable(fetchPath, fetchable))
    else if fetchable.isEntityValued then
      Failure(NotYetImplemented("Support for implicit entity-valued fetches is not yet implemented"))
    else Failure(UnsupportedOperation)
  }
}

=== FILE: text.dfy ===
/** Character classes and number formatting of the Java platform that the
    dialect and the query rewriting rely on. */
module Text {

  /** `Character.isWhitespace` on one character: the Unicode space, line and
      paragraph separators except the three non-breaking spaces (U+00A0, U+2007,
      U+202F), plus the ASCII controls U+0009..U+000D and U+001C..U+001F. */
  predicate IsJavaWhitespace(c: char) {
    var n := c as int;
    || (0x09 <= n <= 0x0D)
    || (0x1C <= n <= 0x20)
    || n == 0x1680
    || (0x2000 <= n <= 0x2006)
    || (0x2008 <= n <= 0x200A)
    || n == 0x2028
    || n == 0x2029
    || n == 0x205F
    || n == 0x3000
  }

  /** The regular-expression class `\w` without the Unicode flag: `[a-zA-Z_0-9]`. */
  predicate IsWordChar(c: char) {
    || ('a' <= c <= 'z')
    || ('A' <= c <= 'Z')
    || ('0' <= c <= '9')
    || c == '_'
  }

  /** `text.matches("\\w+")`: the whole text is one or more word characters. */
  predicate IsWordText(text: string) {
    |text| > 0 && forall i :: 0 <= i < |text| ==> IsWordChar(text[i])
  }

  /** `String.toLowerCase` restricted to ASCII upper-case letters; every other
      character is left as it is. */
  function ToLowerAscii(s: string): (r: string)
    ensures |r| == |s|
    ensures forall i :: 0 <= i < |s| ==> r[i] == (if 'A' <= s[i] <= 'Z' then (s[i] as int + 32) as char else s[i])
  {
    seq(|s|, i requires 0 <= i < |s| => if 'A' <= s[i] <= 'Z' then (s[i] as int + 32) as char else s[i])
  }

  predicate IsDigitText(s: string) {
    forall i :: 0 <= i < |s| ==> '0' <= s[i] <= '9'
  }

  function DigitChar(d: nat): (c: char)
    requires d < 10
  {
    ('0' as int + d) as char
  }

  /** The decimal rendering of a non-negative number, as `Long.toString` produces it. */
  function NatToDecimal(n: nat): (s: string)
    ensures |s| >= 1
    ensures IsDigitText(s)
    ensures |s| > 1 ==> s[0] != '0'
    decreases n
  {
    if n < 10 then [DigitChar(n)] else NatToDecimal(n / 10) + [DigitChar(n % 10)]
  }

  /** The number a string of decimal digits denotes. */
  function DecimalValue(s: string): nat
    requires IsDigitText(s)
  {
    if |s| == 0 then 0 else DecimalValue(s[..|s| - 1]) * 10 + (s[|s| - 1] as int - '0' as int)
  }

  /** Reading back the decimal rendering of a number gives the number. */
  lemma {:induction false} DecimalRoundTrip(n: nat)
    ensures DecimalValue(NatToDecimal(n)) == n
  {
    if n >= 10 {
      var s := NatToDecimal(n);
      assert s[..|s| - 1] == NatToDecimal(n / 10);
      DecimalRoundTrip(n / 10);
    }
  }

  /** `String.indexOf(char)`: the first index holding `c`, or -1 when there is none. */
  function IndexOf(s: string, c: char): (r: int)
    ensures -1 <= r < |s|
    ensures r == -1 ==> forall j :: 0 <= j < |s| ==> s[j] != c
    ensures r >= 0 ==> s[r] == c && forall j :: 0 <= j < r ==> s[j] != c
  {
    if |s| == 0 then -1
    else if s[0] == c then 0
    else
      var rest := IndexOf(s[1..], c);
      if rest == -1 then -1 else rest + 1
  }
}

=== FILE: wrappers.dfy ===
/** Failure-carrying values shared by every module of the model: `Option` stands for a
    nullable reference, `Result` for a value or the exception the source would throw. */
module Wrappers {

  datatype Option<+T> = None | Some(value: T)

  datatype Result<+T, +E> = Success(value: T) | Failure(error: E)
}
